=== FILE: README.md ===
# libMobility: a Dafny model of the solver bookkeeping

libMobility gives several hydrodynamic mobility solvers one C++ interface.
A caller builds a solver from a boundary `Configuration`, calls `initialize`
with `Parameters`, sets positions, and asks for velocities:

- `Mdot` gives the deterministic part, mobility times forces and torques;
- `sqrtMdotW` gives the thermal part, `prefactor * sqrt(2 kT M) dW`;
- `hydrodynamicVelocities` gives both.

The numerical engines are opaque accelerated back ends: the DPStokes and PSE
engines, the batched N-body Rotne-Prager-Yamakawa kernels and the Lanczos
solver. This project models the decision and bookkeeping code around them,
with immutable records and pure functions. Each C++ object becomes a state
record, and each member function becomes a function from the old record to
the new one.

- `results.dfy`: `Option`, `Result`, and `Step`. A `Step` is a state together
  with a `Result`. It models a C++ exception thrown after the object has
  already been changed.
- `periodicity.dfy`: the periodicity modes, `Configuration`, `Parameters`
  with the struct defaults, the token parser, and the argument marshalling of
  the Python binding.
- `mobility.dfy`: the base class `Mobility`. It covers the `initialize`/`clean`
  life cycle, the default `sqrtMdotW` with its lazily built Lanczos workspace
  and its buffer split at `3N`, and `hydrodynamicVelocities`.
- `polyfits.dfy`: `polyEval`, proved equal to a power sum and to Horner's
  rule, and the `cbetam_inv` coefficient table.
- `dpstokes.dfy`: the doubly periodic solver. It covers the geometry check,
  the kernel choice, the even in-plane grid size, the two sizing branches,
  the z padding, the odd Chebyshev node count, and the order in which the
  engine and the base are set up and torn down.
- `stokes.dfy`: the Stokes drags `6*pi*eta*a` and `8*pi*eta*a^3`.
- `selfmobility.dfy`: the open-boundary solver with no hydrodynamic
  interactions.
- `nbody.dfy`: the N-body solver. It covers the kernel choice, the batch
  layout, the self mobility and the stored positions.
- `pse.dfy`: the triply periodic PSE solver. It covers the fast path that
  only updates the shear strain, the engine rebuild, and the torque
  rejections.

Modelling conventions:

- Exact reals stand in for `double`. `M_PI` is the decimal literal
  3.14159265358979323846.
- `sqrt` is an input function. Where a proof needs it, the property it must
  have is stated in a `requires`.
- The Lanczos solver is an input function: workspace, operator, zeroed buffer
  and prefactor go in, and the values written over the buffer come out.
- The Mersenne twister is an `Engine(seed, used)` record, with the seed taken
  modulo `2^32`. A `Sampler` input maps such an engine and a count to that
  many standard normal values and the advanced engine.
- The `std::random_device` value is an `entropy` parameter.
- The PSE displacement computation is an input function.
- The DPStokes engine is a record of what it was set up with.
- Null pointers are `None`.
- Raw output buffers are sequences: a call returns their new contents.
- A member the C++ leaves uninitialised is zero in the model. The exceptions
  are the base temperature and the default-constructed engine parameter
  records of DPStokes and PSE, which are inputs of the constructors.

## Model

| member | source | states |
|---|---|---|
| Periodicity.StringToPeriodicity | include/MobilityInterface/pythonify.h:16-24 | accepted exactly when the string is one of the five tokens; the mode's token is the input; anything else gives "[libMobility] Invalid periodicity" |
| Periodicity.TokenRoundTrip | include/MobilityInterface/pythonify.h:16-22 | every mode is parsed back from its own token |
| Periodicity.StringToPeriodicityInjective | include/MobilityInterface/pythonify.h:18-22 | distinct accepted tokens give distinct modes |
| Periodicity.CreateConfiguration | include/MobilityInterface/pythonify.h:26-32 | a configuration exists exactly when all three tokens are valid, and each axis carries the mode of its own token |
| Periodicity.CreateConfigurationRoundTrip | include/MobilityInterface/pythonify.h:26-32 | every configuration is produced by the tokens of its axes |
| Periodicity.BindingParameters | include/MobilityInterface/pythonify.h:63-70 | the binding passes a one-element radius list and the caller's T, eta and N; tolerance 1e-4, seed 0 and no torques come from the struct defaults |
| Periodicity.ForcesPointer | include/MobilityInterface/pythonify.h:78-90 | an empty forces array becomes a null pointer; any other array is passed unchanged |
| Mobility.NewBase | include/MobilityInterface/MobilityInterface.h:38-49 | a new base is not initialised, has no torques, no workspace and an empty buffer, and satisfies the base invariant |
| Mobility.Clean | include/MobilityInterface/MobilityInterface.h:142-145 | drops the workspace and empties the buffer; the initialised flag and all recorded values stay |
| Mobility.CleanIdempotent | include/MobilityInterface/MobilityInterface.h:142-145 | cleaning twice is cleaning once |
| Mobility.CleanPreservesValid | include/MobilityInterface/MobilityInterface.h:142-145 | clean keeps the base invariant |
| Mobility.Record | include/MobilityInterface/MobilityInterface.h:82-87 | sets the initialised flag and records N, seed, tolerance, temperature and the torque flag; the workspace is untouched |
| Mobility.Initialize | include/MobilityInterface/MobilityInterface.h:78-88 | records the new parameters; an already initialised base loses its workspace first, a fresh one keeps its state |
| Mobility.InitializePreservesValid | include/MobilityInterface/MobilityInterface.h:78-88 | after initialize there is never a workspace, so none can disagree with the new parameters |
| Mobility.NumberParticles | include/MobilityInterface/MobilityInterface.h:133-135 | `getNumberParticles`; what it reports is stated by Mobility.GettersReportParameters |
| Mobility.NeedsTorque | include/MobilityInterface/MobilityInterface.h:137-139 | `getNeedsTorque`; what it reports is stated by Mobility.GettersReportParameters |
| Mobility.GettersReportParameters | include/MobilityInterface/MobilityInterface.h:133-139 | the getters return the particle count and torque flag of the latest initialize |
| Mobility.BuildWorkspace | include/MobilityInterface/MobilityInterface.h:103-111 | a zero seed is replaced by the entropy value; the workspace covers 2N elements with torques and N without; the buffer has 3 reals per element; a negative count throws after the workspace was built |
| Mobility.SqrtMdotW | include/MobilityInterface/MobilityInterface.h:98-123 | returns unchanged at zero temperature or prefactor, before the initialised check; else an uninitialised base throws; an existing workspace keeps its size, tolerance and seed; with torques a missing angular buffer throws, and the generator does not advance; on success the workspace has served one more call, and the buffer holds what the Lanczos solver, given that advanced workspace, writes over a zeroed buffer with Mobility.LanczosOperator as its operator; linear gets the first 3N buffer values and, with torques only, angular gets the rest; once initialised with non-zero temperature and prefactor, the call fails exactly when a missing workspace has a negative element count (LengthError) or torques are on without an angular buffer; only the seed, the workspace and the buffer change |
| Mobility.LanczosOperatorSplit | include/MobilityInterface/MobilityInterface.h:115-119 | Mdot reads the forces from the first 3N input values and, with torques only, the torques after them; linear velocities land in the first 3N output values and, with torques only, angular ones after them; without torques the rest of the output is kept |
| Mobility.LanczosOperatorReadsForcesOnly | include/MobilityInterface/MobilityInterface.h:115-119 | without torques, the operator's output does not depend on the input beyond its first 3N values |
| Mobility.SqrtMdotWStateIgnoresBuffers | include/MobilityInterface/MobilityInterface.h:98-123 | the workspace and buffer left behind do not depend on the velocities handed in, as long as an angular buffer is present in both calls or neither when torques are on |
| Mobility.SqrtMdotWPreservesValid | include/MobilityInterface/MobilityInterface.h:103-111 | any workspace ever built matches the recorded element count, tolerance and seed, and owns a buffer of 3 reals per element |
| Mobility.ThermalCallsAdvance | include/MobilityInterface/MobilityInterface.h:104-119 | the workspace is built once and seeded once; each successful thermal call hands the Lanczos solver a workspace one call further on, so two successive calls reach it with different generator states |
| Mobility.WorkspaceBuiltOnce | include/MobilityInterface/MobilityInterface.h:103-111 | a second thermal call reuses the size, tolerance and seed of the workspace the first built, whatever entropy it is given |
| Mobility.HydrodynamicVelocities | include/MobilityInterface/MobilityInterface.h:126-131 | Mdot runs only when forces or torques are given, then the thermal pass always runs on the same buffers; at zero temperature or prefactor the result is Mdot's; otherwise the state is that of a thermal pass alone (for an Mdot that keeps its pointers, or without torques), and on success the first 3N linear values are the Lanczos buffer's while Mdot's values remain beyond 3N; the angular output is Mdot's without torques and, with torques, the Lanczos values after 3N copied over Mdot's angular velocities; it fails exactly when the thermal pass on Mdot's buffers does |
| Mobility.HydrodynamicVelocitiesIgnoresForces | include/MobilityInterface/MobilityInterface.h:118-131 | as written, with a thermal pass two different force vectors give the same first 3N linear velocities |
| Mobility.SummedVelocities | include/MobilityInterface/pythonify.h:87-92 | the deterministic velocities plus thermal noise drawn into zeroed buffers, component by component, for the linear and, when present, the angular velocities, as the binding documents |
| Mobility.SummedRestoresMdot | include/MobilityInterface/MobilityInterface.h:125-131 | the summed result is the as-written result plus the Mdot term on each of the first 3N linear components |
| PolyFits.PolyEval | solvers/DPStokes/extra/poly_fits.h:5-16 | the loop computes the power sum of c[order-i]*x^i and, equally, Horner's rule; a non-empty list is required |
| PolyFits.PowerSumIsHorner | solvers/DPStokes/extra/poly_fits.h:9-13 | the ascending power sum and Horner's rule agree on every coefficient list |
| PolyFits.PolyValueAtZero | solvers/DPStokes/extra/poly_fits.h:8 | the value at zero is the last coefficient |
| PolyFits.PolyValueConstant | solvers/DPStokes/extra/poly_fits.h:7-10 | a one-element list is a constant function |
| PolyFits.CBetamInvDegree | solvers/DPStokes/extra/poly_fits.h:18-29 | the fit has 11 coefficients and its value at zero is 3445.959503226691 |
| DPStokes.New | solvers/DPStokes/mobility.h:28-39 | accepted exactly for periodic x and y with z open, single wall or two walls, mapped one-to-one to nowall, bottom and slit |
| DPStokes.SetParameters | solvers/DPStokes/mobility.h:41-44 | stores the record and creates an idle engine handle; nothing else changes |
| DPStokes.EvenGridSize | solvers/DPStokes/mobility.h:70-79 | the result is floor or ceil of Lx/h and within one cell of it; it equals Lx/h when that is whole, and is even otherwise |
| DPStokes.EvenGridSizeExamples | solvers/DPStokes/mobility.h:70-79 | 10.3/1.05 gives 10 and 10.5 gives 10 |
| DPStokes.OddNodeCount | solvers/DPStokes/mobility.h:107-114 | the result is floor or ceil of the estimate and within one of it; it equals a whole estimate, and is odd for any other estimate above -1 |
| DPStokes.OddNodeCountNegative | solvers/DPStokes/mobility.h:108-114 | the truncating C++ remainder makes -1.5 give -2, which is even |
| DPStokes.TargetSpacing | solvers/DPStokes/mobility.h:60-65 | h times 1.731 is the radius with torques, h times 1.205 without |
| DPStokes.SelectKernel | solvers/DPStokes/mobility.h:54-68 | with torques w = w_d = 6, beta = 1.327w, beta_d = 2.217w, alpha_d = w_d/2; without, w = 4, beta = 1.785w and the dipole values are kept; always alpha = w/2 and tolerance 1e-6; no other field changes |
| DPStokes.PadZ | solvers/DPStokes/mobility.h:94-101 | nowall lowers zmin and raises zmax by 1.5wh/2, bottom raises only zmax, slit changes neither; the height grows by one pad per open side |
| DPStokes.SizeGrid | solvers/DPStokes/mobility.h:70-92 | nx = ny = the even grid size; resizing sets Lx = Ly = N*h with h kept; otherwise the box is kept, h*N = Lx and beta is the inverse fit at a/(w*h); with a fixed box, N = 0 is an error |
| DPStokes.Vertical | solvers/DPStokes/mobility.h:94-114 | the z extent is padded and nz is the odd-preferring rounding of the node estimate for the padded half height; nothing else changes |
| DPStokes.DeriveGrid | solvers/DPStokes/mobility.h:54-114 | the derivation is kernel choice, then in-plane sizing, then vertical discretisation; nx = ny always, and both are even when Lx/h is not whole |
| DPStokes.SizeGridTwice | solvers/DPStokes/mobility.h:85-92 | sizing a record that came out of the sizing gives the same N, box and spacing |
| DPStokes.ResizedBoxIsFixed | solvers/DPStokes/mobility.h:85-87 | a box of N cells of spacing h rounds back to N |
| DPStokes.DeriveGridTwice | solvers/DPStokes/mobility.h:46-114 | deriving again from the derived record keeps nx, ny, Lx and Ly, and moves zmin and zmax by the same pad again |
| DPStokes.PadTwice | solvers/DPStokes/mobility.h:94-101 | padding twice adds the same buffer twice |
| DPStokes.Prepared | solvers/DPStokes/mobility.h:47-52 | initialize first overwrites viscosity, mode and radius in the stored record and nothing else |
| DPStokes.Clean | solvers/DPStokes/mobility.h:128-131 | runs the base clean, then clears the engine |
| DPStokes.CleanIdempotent | solvers/DPStokes/mobility.h:128-131 | cleaning twice is cleaning once |
| DPStokes.Initialize | solvers/DPStokes/mobility.h:46-118 | the stored record becomes the derived grid; N, T and tolerance are recorded; the base is initialised; the engine is set up on a first initialize and cleared on any later one |
| DPStokes.InitializeBaseFirst | solvers/DPStokes/mobility.h:116-117 | with the base initialised before the engine set-up, the engine always holds the derived grid; the rest of the state is as in Initialize |
| DPStokes.ReinitializeClearsEngine | solvers/DPStokes/mobility.h:116-117 | as written, after construct, set parameters, initialize and initialize again, the engine is cleared |
| DPStokes.ReinitializeKeepsEngine | solvers/DPStokes/mobility.h:116-117 | with the base first, the same sequence leaves the engine set up with the stored grid |
| DPStokes.SecondInitializePadsAgain | solvers/DPStokes/mobility.h:94-101 | a second initialize with the same parameters keeps nx and Lx and pads z again by the same amount |
| DPStokes.PaddingGrowsOpenBox | solvers/DPStokes/mobility.h:95-98 | with no wall and a positive radius and box, initialize strictly enlarges the z extent on both sides |
| SelfMobility.Seeded | solvers/SelfMobility/mobility.h:38-40 | the engine is seeded with the seed modulo 2^32 and nothing drawn |
| SelfMobility.New | solvers/SelfMobility/mobility.h:30-35 | accepted exactly when all three axes are open, else "[Mobility] This is an open boundary solver" |
| SelfMobility.Initialize | solvers/SelfMobility/mobility.h:37-47 | the linear mobility times 6 pi eta a is 1 and the angular one times 8 pi eta a^3 is 1; the engine is reseeded, from the entropy value when the seed is 0; T, N and the base are recorded |
| SelfMobility.SetPositions | solvers/SelfMobility/mobility.h:54 | positions change nothing |
| SelfMobility.Mdot | solvers/SelfMobility/mobility.h:56-67 | outputs keep their length; a null input leaves its output as it was; beyond 3N nothing changes |
| SelfMobility.MdotIsStokesDrag | solvers/SelfMobility/mobility.h:43-67 | after initialize, each of the first 3N linear velocities times the translational drag is the force, and each angular one times the rotational drag is the torque |
| SelfMobility.MdotAdditive | solvers/SelfMobility/mobility.h:57-61 | the response to a sum of forces is the sum of the responses |
| SelfMobility.SqrtMdotW | solvers/SelfMobility/mobility.h:70-82 | one draw of 3N values, or 6N with an angular buffer; linear gets the first 3N scaled by prefactor*sqrt(2 T mu), angular gets the next 3N scaled with the angular mobility; the engine advances; nothing else changes |
| SelfMobility.NoiseVariance | solvers/SelfMobility/mobility.h:72-75 | each linear noise value squared is 2 T mu prefactor^2 times its normal draw squared |
| SelfMobility.SeededNoiseReproducible | solvers/SelfMobility/mobility.h:37-40 | with a non-zero seed, the noise after initialize depends neither on earlier history nor on the entropy source |
| SelfMobility.HydrodynamicVelocities | include/MobilityInterface/MobilityInterface.h:126-131 | at any temperature, the first 3N linear values are prefactor*sqrt(2 T mu) times the first 3N draws, so the forces never reach them; the caller's values remain beyond 3N; with an angular buffer its first 3N values are the next 3N draws scaled with the angular mobility; the engine advances as in one noise pass |
| SelfMobility.NoiseLinear | solvers/SelfMobility/mobility.h:70-75 | entry by entry, the noise pass writes the first 3N draws, scaled by prefactor*sqrt(2 T mu), into the first 3N linear values and keeps the rest; the engine advances |
| SelfMobility.NoiseAngular | solvers/SelfMobility/mobility.h:76-81 | with an angular buffer, its first 3N values are draws 3N to 6N-1 scaled with the angular mobility, and the rest are kept |
| SelfMobility.NoiseOverwritesFront | solvers/SelfMobility/mobility.h:70-82 | the noise pass does not read the first 3N values of its buffers: buffers that agree beyond them give the same result |
| SelfMobility.HydrodynamicVelocitiesIsNoise | include/MobilityInterface/MobilityInterface.h:126-131 | as written, for any forces, torques and temperature, the composition equals the noise pass on the untouched buffers |
| SelfMobility.ZeroTemperatureDropsMdot | solvers/SelfMobility/mobility.h:70-75 | as written, at zero temperature the first 3N linear velocities come out zero whatever the forces |
| SelfMobility.SummedVelocities | include/MobilityInterface/pythonify.h:87-92 | the velocities are Mdot's plus noise drawn into zeroed buffers of their own, component by component, linear and, when an angular buffer is given, angular; the engine advances as in one noise pass |
| SelfMobility.ZeroTemperatureKeepsMdot | include/MobilityInterface/pythonify.h:91 | with the summed composition, zero temperature gives exactly the deterministic velocities, linear and angular, for any forces and torques |
| NBody.New | solvers/NBody/mobility.h:31-40 | x or y not open gives "[Mobility] NBody must be open in the plane"; otherwise z open selects the free-space kernel, a single wall the bottom-wall kernel, and anything else "[Mobility] Invalid periodicity" |
| NBody.SetParameters | solvers/NBody/mobility.h:53-64 | rejected exactly when not initialised; stores the algorithm; a negative batch count becomes 1 and a negative batch size becomes N; other values are kept and nothing else changes |
| NBody.DefaultIsOneBatch | solvers/NBody/mobility.h:42-64 | the default parameters give one batch of all N particles |
| NBody.SetParametersIdempotent | solvers/NBody/mobility.h:59-63 | setting the same batch parameters twice is setting them once |
| NBody.Initialize | solvers/NBody/mobility.h:66-72 | marks initialised, records N and the first radius; the self mobility times 6 pi eta a is 1; the base is initialised; the batch layout, kernel and positions are kept |
| NBody.ParametersAfterInitialize | solvers/NBody/mobility.h:55-57 | setting parameters straight after construction fails, and after initialize succeeds |
| NBody.ReinitializeKeepsBatchSize | solvers/NBody/mobility.h:66-72 | re-initialising with a new N keeps the batch size defaulted from the old N |
| NBody.SetPositions | solvers/NBody/mobility.h:74-77 | stores exactly the first 3N values; a negative N makes the resize throw |
| NBody.SetPositionsIdempotent | solvers/NBody/mobility.h:74-77 | storing the stored positions again changes nothing |
| NBody.Dispatch | solvers/NBody/mobility.h:83-85 | the bottom-wall routine is used exactly for the bottom-wall kernel |
| NBody.RoutineFromConfiguration | solvers/NBody/mobility.h:31-40 | the routine of a constructed solver is the bottom-wall one exactly when z is a single wall |
| PSE.New | solvers/PSE/mobility.h:26-31 | accepted exactly when all three axes are periodic; no engine and a particle count of 0 |
| PSE.SetParameters | solvers/PSE/mobility.h:56-62 | stores psi, the box and the shear strain as pending; nothing else changes |
| PSE.OnlyShearStrainChanged | solvers/PSE/mobility.h:100-113 | true exactly when the pending parameters are the committed box with the pending shear strain and the viscosity, first radius and tolerance of the new parameters, and temperature and N are unchanged |
| PSE.OnlyShearStrainChangedIgnoresShear | solvers/PSE/mobility.h:100-113 | the fast-path decision does not depend on the pending or committed shear strain |
| PSE.Initialize | solvers/PSE/mobility.h:34-50 | with an engine and only the shear changed, only the engine's shear is updated; otherwise T, the fluid values and N are recorded, the base initialised and the engine rebuilt; pending becomes committed on both paths; torques throw exactly when requested, after the commit |
| PSE.NewIsValid | solvers/PSE/mobility.h:26-31 | a new solver satisfies the engine invariant |
| PSE.SetParametersPreservesValid | solvers/PSE/mobility.h:56-62 | setting parameters keeps the engine invariant |
| PSE.InitializeSynchronises | solvers/PSE/mobility.h:34-47 | on either path the engine ends up built for the pending parameters and N, and the solver holds the T, viscosity, radius, tolerance and N of the new parameters |
| PSE.ShearChangeTakesFastPath | solvers/PSE/mobility.h:33-37 | after an initialize, changing only the shear and initialising again keeps the engine with the new shear and leaves the base alone |
| PSE.OtherChangeRebuilds | solvers/PSE/mobility.h:38-46 | a change of Lx, N or temperature rebuilds the engine and initialises the base |
| PSE.TorqueRejectedAfterCommit | solvers/PSE/mobility.h:47-49 | a first initialize with torques throws but leaves the solver initialised with its engine built |
| PSE.SetPositions | solvers/PSE/mobility.h:64-71 | N = 0 throws "You must call setParametersPSE() after initialize()", a negative N throws from the resize, otherwise exactly the first 3N values are stored |
| PSE.PositionsNeedInitialize | solvers/PSE/mobility.h:64-68 | a new solver refuses positions, and one initialised with a positive N accepts them |
| PSE.Mdot | solvers/PSE/mobility.h:73-78 | torques throw; otherwise the engine computes at zero temperature and prefactor, with its generator assumed unchanged, and the angular buffer is untouched |
| PSE.SqrtMdotW | solvers/PSE/mobility.h:80-85 | an angular buffer throws and nothing changes; otherwise the engine advances by one thermal computation and, so advanced, computes without forces at the solver's temperature |
| PSE.HydrodynamicVelocities | solvers/PSE/mobility.h:87-96 | an angular buffer throws and nothing changes; otherwise the engine advances by one thermal computation and one call computes forces and noise together |
| PSE.ThermalCallsAdvance | solvers/PSE/mobility.h:80-85 | two successive thermal calls each advance the engine by one computation, so the second reaches the engine with a different generator state; the engine keeps the parameters and particle count it was built with |
| PSE.CombinedCallIgnoresTorques | solvers/PSE/mobility.h:73-96 | Mdot rejects torques, but the combined call without an angular buffer ignores them |
| PSE.CombinedWithoutForcesIsNoise | solvers/PSE/mobility.h:80-96 | without forces, the combined call is the thermal call |

## Left out

- The Lanczos iteration, the Mersenne twister, `std::random_device` and the
  normal distribution are inputs. Statistical properties are stated per
  sample only. Each random source carries its position: the Lanczos
  workspace counts its calls, the PSE engine its thermal computations, and
  the SelfMobility engine its draws. Successive thermal calls therefore
  reach the input functions with different generator states. The model
  does not promise that the draws differ, since the input functions are
  arbitrary.
- The accelerated engines are not modelled: the DPStokes and PSE engines and
  the batched N-body kernels. DPStokes `setPositions` and `Mdot` only forward
  to the engine and are not modelled. The DPStokes thermal pass is the base
  `Mobility.SqrtMdotW` with the engine's `Mdot` as its operator.
- Two signatures are not modelled, because neither matches the four-argument
  base: the two-argument `NBody::Mdot`, and the two-argument `Mdot` and
  `sqrtMdotW` the binding calls. Of `NBody::Mdot`, only the kernel dispatch
  is modelled.
- Also not modelled:
  - floating-point rounding and `asin`;
  - the C++ `int` range, so `3*N` overflow and the double-to-int conversion of
    `ceil`/`floor` are absent;
  - the `precision` string;
  - the pybind11 and numpy glue.
- Mobility.LanczosOperator: has no contract of its own. How it splits its
  input and output at `3N` is stated by `Mobility.LanczosOperatorSplit`.
- Uninitialised C++ members are read as zero. The base temperature and the
  engine records' defaults are inputs, because the source reads them before
  any assignment.
- SelfMobility.Initialize: requires a non-zero viscosity and first radius.
  The source divides by zero there and gets an IEEE infinity, which exact
  reals cannot represent.
- NBody.Initialize: requires a non-zero viscosity and first radius, for the
  same reason.
- DPStokes.Initialize: requires the engine handle, which the source
  dereferences. It also requires a non-zero first radius. With a zero
  radius the spacing `h = radius/1.731` (or `/1.205`) is zero, `Lx/h` is an
  infinite double, and its conversion to `int` is undefined.
- DPStokes.SizeGrid: with a fixed box and `N = 0`, the source divides the box
  length by zero and carries on with infinite values. The model returns the
  error `ZeroGrid` instead.
- An empty radius list, a missing engine handle (DPStokes before
  `setParametersDPStokes`, PSE before `initialize`) and too-short buffers are
  undefined behaviour in the source. The solver members require them absent.
  The base members below do not, and truncate instead.
- PSE.Mdot: the model assumes that a computation at zero temperature and
  prefactor leaves the engine's generator where it was. Whether it does is
  up to the engine, which is not part of this model. `PSE.SqrtMdotW`
  advances the engine on every call, whatever the temperature.
- Mobility.SqrtMdotW: accepts velocity buffers of any length. Where the
  source's `std::copy` would write `3N` values past the end of a shorter
  buffer, the model writes only the entries that exist.
- Mobility.HydrodynamicVelocities: truncates too-short buffers in the same
  way, through `Mobility.SqrtMdotW`.
- Mobility.LanczosOperator: passes `Mdot` the parts of the vectors that
  exist when they are shorter than `3N`, and the operator's output keeps
  the length of its buffer.
- `setParametersSelfMobility` does nothing and is not modelled.
- The Python tests in `tests/test_initialization.py` expect behaviour this
  code does not have. The model follows the code. Lines 49-57, 59-67 and
  74-76 call NBody's `setParameters` before `initialize`, which this code
  rejects. Lines 74-82
  expect `initialize` to reject a batch layout that does not multiply to N,
  and this code has no such check.

## Findings

| source | as written | input that shows it | evidently intended | confidence | as-written member | corrected member |
|---|---|---|---|---|---|---|
| solvers/DPStokes/mobility.h:116-117 | the engine is set up, then `Mobility::initialize` calls the virtual `clean` on an initialised object, which clears that engine | construct, `setParametersDPStokes`, then `initialize` twice with the same parameters | the engine holds the freshly derived grid after every `initialize` | likely; not executed | DPStokes.ReinitializeClearsEngine | DPStokes.ReinitializeKeepsEngine |
| include/MobilityInterface/MobilityInterface.h:118-131 | `hydrodynamicVelocities` writes `Mdot` into `linear`, then the thermal pass copies the Lanczos buffer over it, and with torques over `Mdot`'s angular velocities too | non-zero temperature and prefactor, and two different force vectors | deterministic plus thermal velocities, as the binding's documentation says | likely; not executed | Mobility.HydrodynamicVelocitiesIgnoresForces | Mobility.SummedVelocities |
| solvers/SelfMobility/mobility.h:70-75 | the noise pass assigns `prefactor*sqrt(2*T*mu)*dW` over `linear`, with no early return at zero temperature | temperature 0 and any non-zero forces: `hydrodynamicVelocities` returns zeros | at zero temperature the result is the deterministic `Mdot` | likely; not executed | SelfMobility.ZeroTemperatureDropsMdot | SelfMobility.ZeroTemperatureKeepsMdot |

=== FILE: dpstokes.dfy ===
/** The doubly periodic Stokes solver (solvers/DPStokes/mobility.h): the
    geometry check, the derivation of the grid and kernel handed to the
    accelerated engine, and the order in which engine and base are set up and
    torn down. The engine itself is a record of what it was set up with. */
module DPStokes {
  import opened Results
  import opened Periodicity
  import Mobility
  import PolyFits

  /** The wall mode handed to the engine, derived from the z periodicity. */
  datatype WallMode = NoWall | Bottom | Slit

  function WallModeName(m: WallMode): string {
    match m
    case NoWall => "nowall"
    case Bottom => "bottom"
    case Slit => "slit"
  }

  /** The engine's parameter record (`uammd_dpstokes::PyParameters`). */
  datatype DPParams = DPParams(
    dt: real, viscosity: real,
    Lx: real, Ly: real, zmin: real, zmax: real,
    w: real, w_d: real, hydrodynamicRadius: real,
    beta: real, beta_d: real, alpha: real, alpha_d: real,
    mode: string, nx: int, ny: int, nz: int,
    tolerance: real, allowChangingBoxSize: bool)

  /** The engine behind the handle: cleared, or set up with a parameter
      record and a particle count. */
  datatype Engine = Idle | Ready(par: DPParams, numberParticles: int)

  /** The solver object. `engine` is `None` until `setParametersDPStokes`
      creates the handle. */
  datatype Solver = Solver(
    base: Mobility.Base,
    wallmode: WallMode,
    dppar: DPParams,
    engine: Option<Engine>,
    numberParticles: int,
    temperature: real,
    lanczosTolerance: real)

  const NotDoublyPeriodic := "[DPStokes] This is a doubly periodic solver"
  const ZeroGrid := "[DPStokes] zero grid cells: the box length would be divided by zero"

  /** The constructor accepts x and y periodic with z open, single wall or
      two walls, mapped to the wall modes nowall, bottom and slit.
      `defaults` is the engine record's default-constructed value and
      `temperature0` the base's indeterminate temperature. */
  function New(conf: Configuration, defaults: DPParams, temperature0: real): (r: Result<Solver>)
    ensures r.Ok? <==> conf.x == Periodic && conf.y == Periodic && conf.z in {Open, SingleWall, TwoWalls}
    ensures r.Err? ==> r.message == NotDoublyPeriodic
    ensures r.Ok? ==> && (conf.z == Open <==> r.value.wallmode == NoWall)
                      && (conf.z == SingleWall <==> r.value.wallmode == Bottom)
                      && (conf.z == TwoWalls <==> r.value.wallmode == Slit)
    ensures r.Ok? ==> r.value.engine.None? && r.value.dppar == defaults
                      && r.value.base == Mobility.NewBase(temperature0)
  {
    if conf.x != Periodic || conf.y != Periodic || !(conf.z == Open || conf.z == SingleWall || conf.z == TwoWalls)
    then Err(NotDoublyPeriodic)
    else
      var mode := if conf.z == Open then NoWall else if conf.z == SingleWall then Bottom else Slit;
      Ok(Solver(Mobility.NewBase(temperature0), mode, defaults, None, 0, 0.0, 0.0))
  }

  /** `setParametersDPStokes`: stores the record and creates a fresh engine handle. */
  function SetParameters(s: Solver, par: DPParams): (r: Solver)
    ensures r.dppar == par && r.engine == Some(Idle)
    ensures r.(dppar := s.dppar, engine := s.engine) == s
  {
    s.(dppar := par, engine := Some(Idle))
  }

  function Floor(x: real): (n: int)
    ensures n as real <= x < n as real + 1.0
  {
    x.Floor
  }

  function Ceil(x: real): (n: int)
    ensures n as real - 1.0 < x <= n as real
  {
    -((-x).Floor)
  }

  /** C++ `%` on `int`: the remainder takes the sign of the dividend. */
  function CppRem(a: int, b: int): (r: int)
    requires b > 0
    ensures a >= 0 ==> r == a % b
    ensures a < 0 ==> r == -((-a) % b)
  {
    if a >= 0 then a % b else -((-a) % b)
  }

  /** Whether `x` is a whole number. */
  predicate IsWhole(x: real) {
    Floor(x) as real == x
  }

  /** Ceiling and floor coincide exactly on whole numbers and otherwise
      differ by one. */
  lemma CeilFloor(x: real)
    ensures Ceil(x) == Floor(x) || Ceil(x) == Floor(x) + 1
    ensures IsWhole(x) <==> Ceil(x) == Floor(x)
  {
    var f := Floor(x);
    var c := Ceil(x);
    assert (c - 1) as real < (f + 1) as real;
    assert f as real <= c as real;
  }

  /** The in-plane cell count: of `ceil(x)` and `floor(x)`, the ceiling when
      it is even and the floor otherwise. */
  function EvenGridSize(x: real): (n: int)
    ensures n == Floor(x) || n == Ceil(x)
    ensures n as real - 1.0 < x < n as real + 1.0
    ensures IsWhole(x) ==> n as real == x
    ensures !IsWhole(x) ==> n % 2 == 0
  {
    CeilFloor(x);
    var up := Ceil(x);
    var down := Floor(x);
    if up % 2 == 0 then up else down
  }

  /** Lx = 10.3 and h = 1.05 give 9.8... cells, rounded up to the even 10;
      10.5 cells round down to 10. */
  lemma EvenGridSizeExamples()
    ensures EvenGridSize(10.3 / 1.05) == 10
    ensures EvenGridSize(10.5) == 10
  {
    assert Floor(10.3 / 1.05) == 9;
    assert Ceil(10.3 / 1.05) == 10;
    assert Floor(10.5) == 10;
    assert Ceil(10.5) == 11;
  }

  /** The Chebyshev node count: of `ceil(x)` and `floor(x)`, the ceiling
      when `ceil(x) % 2 == 1` in C++ arithmetic and the floor otherwise. */
  function OddNodeCount(x: real): (n: int)
    ensures n == Floor(x) || n == Ceil(x)
    ensures n as real - 1.0 < x < n as real + 1.0
    ensures IsWhole(x) ==> n as real == x
    ensures !IsWhole(x) && x > -1.0 ==> n % 2 == 1
  {
    CeilFloor(x);
    var up := Ceil(x);
    var down := Floor(x);
    if CppRem(up, 2) == 1 then up else down
  }

  /** Below -1 the C++ remainder of a negative odd ceiling is -1, so the
      even floor is taken. */
  lemma OddNodeCountNegative()
    ensures OddNodeCount(-1.5) == -2
  {
    assert Ceil(-1.5) == -1;
    assert Floor(-1.5) == -2;
  }

  /** The target lattice spacing before any re-fit: the radius over 1.731
      for the torque kernel, over 1.205 otherwise. */
  function TargetSpacing(radius: real, needsTorque: bool): (h: real)
    ensures needsTorque ==> h * 1.731 == radius
    ensures !needsTorque ==> h * 1.205 == radius
  {
    if needsTorque then radius / 1.731 else radius / 1.205
  }

  /** Kernel selection: width 6 with dipole kernel for torques, width 4
      otherwise; the dipole parameters are kept when torques are off. */
  function SelectKernel(par: DPParams, needsTorque: bool): (r: DPParams)
    ensures needsTorque ==>
              && r.w == 6.0 && r.w_d == 6.0
              && r.beta == 1.327 * r.w && r.beta_d == 2.217 * r.w
              && r.alpha_d == r.w_d / 2.0
    ensures !needsTorque ==>
              && r.w == 4.0 && r.beta == 1.785 * r.w
              && r.w_d == par.w_d && r.beta_d == par.beta_d && r.alpha_d == par.alpha_d
    ensures r.alpha == r.w / 2.0 && r.tolerance == 0.000001
    ensures r.(w := par.w, w_d := par.w_d, beta := par.beta, beta_d := par.beta_d,
               alpha := par.alpha, alpha_d := par.alpha_d, tolerance := par.tolerance) == par
  {
    var p1 :=
      if needsTorque then par.(w := 6.0, w_d := 6.0, beta := 1.327 * 6.0, beta_d := 2.217 * 6.0, alpha_d := 6.0 * 0.5)
      else par.(w := 4.0, beta := 1.785 * 4.0);
    p1.(alpha := p1.w * 0.5, tolerance := 0.000001)
  }

  /** How many open sides of the z extent get a buffer. */
  function OpenSides(m: WallMode): nat {
    match m
    case NoWall => 2
    case Bottom => 1
    case Slit => 0
  }

  /** The z extent after adding the kernel buffer `1.5*w*h/2` on its open
      sides: both for nowall, the top for bottom, none for slit. */
  function PadZ(m: WallMode, w: real, h: real, zmin: real, zmax: real): (r: (real, real))
    ensures m == NoWall ==> r == (zmin - 1.5 * w * h / 2.0, zmax + 1.5 * w * h / 2.0)
    ensures m == Bottom ==> r == (zmin, zmax + 1.5 * w * h / 2.0)
    ensures m == Slit ==> r == (zmin, zmax)
    ensures r.1 - r.0 == zmax - zmin + OpenSides(m) as real * (1.5 * w * h / 2.0)
  {
    var pad := 1.5 * w * h / 2.0;
    match m
    case NoWall => (zmin - pad, zmax + pad)
    case Bottom => (zmin, zmax + pad)
    case Slit => (zmin, zmax)
  }

  /** Type of the Chebyshev node estimate `pi/asin(h/H) + 1` as a function
      of the spacing `h` and the half height `H`. */
  type NodeEstimate = (real, real) -> real

  /** A box of length zero gets zero cells. */
  lemma NonEmptyBox(lx: real, h0: real)
    requires h0 != 0.0
    ensures EvenGridSize(lx / h0) != 0 ==> lx != 0.0
  {
    if lx == 0.0 {
      assert lx / h0 == 0.0;
    }
  }

  /** The argument of the inverse kernel-shape fit: the radius over the
      kernel support `w*h`. */
  function RefitArgument(radius: real, w: real, h: real): real
    requires w * h != 0.0
  {
    radius / (w * h)
  }

  /** The in-plane sizing: `N` cells along x and y, then either the box
      is resized to `N*h` or the spacing is re-fitted to `Lx/N` and `beta`
      re-computed from the inverse fit. Returns the record and the spacing
      used from here on. With `N = 0` the re-fit would divide by zero. */
  function SizeGrid(k: DPParams, h0: real): (r: Result<(DPParams, real)>)
    requires h0 != 0.0 && k.w != 0.0
    ensures var n := EvenGridSize(k.Lx / h0);
            && (r.Err? <==> !k.allowChangingBoxSize && n == 0)
            && (r.Ok? ==>
                  var g := r.value.0;
                  var h := r.value.1;
                  && g.nx == n && g.ny == n
                  && (k.allowChangingBoxSize ==>
                        && h == h0 && g.Lx == n as real * h0 && g.Ly == n as real * h0 && g.beta == k.beta)
                  && (!k.allowChangingBoxSize ==>
                        && g.Lx == k.Lx && g.Ly == k.Ly && h * n as real == k.Lx && h != 0.0)
                  && g.(nx := k.nx, ny := k.ny, Lx := k.Lx, Ly := k.Ly, beta := k.beta) == k)
    ensures r.Ok? && !k.allowChangingBoxSize ==>
              r.value.1 != 0.0 &&
              r.value.0.beta == PolyFits.BetaFit(RefitArgument(k.hydrodynamicRadius, k.w, r.value.1))
  {
    var n := EvenGridSize(k.Lx / h0);
    if k.allowChangingBoxSize then
      Ok((k.(nx := n, ny := n, Lx := n as real * h0, Ly := n as real * h0), h0))
    else if n == 0 then Err(ZeroGrid)
    else
      NonEmptyBox(k.Lx, h0);
      var h := k.Lx / n as real;
      Ok((k.(nx := n, ny := n, beta := PolyFits.BetaFit(RefitArgument(k.hydrodynamicRadius, k.w, h))), h))
  }

  /** The vertical discretisation: the z extent is padded on its open sides
      and the node count is the odd-preferring rounding of the estimate for
      spacing `h` and half height `(zmax - zmin)/2`. */
  function Vertical(g: DPParams, m: WallMode, h: real, nzActual: NodeEstimate): (r: DPParams)
    ensures (r.zmin, r.zmax) == PadZ(m, g.w, h, g.zmin, g.zmax)
    ensures r.nz == OddNodeCount(nzActual(h, (r.zmax - r.zmin) / 2.0))
    ensures r.(zmin := g.zmin, zmax := g.zmax, nz := g.nz) == g
  {
    var z := PadZ(m, g.w, h, g.zmin, g.zmax);
    g.(zmin := z.0, zmax := z.1, nz := OddNodeCount(nzActual(h, (z.1 - z.0) / 2.0)))
  }

  /** The grid derivation of `initialize` applied to the stored record
      `par` (whose viscosity, mode and radius have just been set): kernel,
      in-plane sizing, then the vertical discretisation. */
  function DeriveGrid(par: DPParams, m: WallMode, needsTorque: bool, nzActual: NodeEstimate): (r: Result<DPParams>)
    requires par.hydrodynamicRadius != 0.0
    ensures var k := SelectKernel(par, needsTorque);
            var sized := SizeGrid(k, TargetSpacing(par.hydrodynamicRadius, needsTorque));
            && (r.Ok? <==> sized.Ok?)
            && (r.Ok? ==> r.value == Vertical(sized.value.0, m, sized.value.1, nzActual))
    ensures r.Ok? ==> r.value.nx == r.value.ny
    ensures r.Ok? && !IsWhole(par.Lx / TargetSpacing(par.hydrodynamicRadius, needsTorque)) ==> r.value.nx % 2 == 0
  {
    var k := SelectKernel(par, needsTorque);
    var sized :- SizeGrid(k, TargetSpacing(par.hydrodynamicRadius, needsTorque));
    Ok(Vertical(sized.0, m, sized.1, nzActual))
  }

  /** The in-plane sizing is a fixed point: re-sizing a record whose box
      came out of a sizing with the same spacing and the same branch gives
      the same cell count, box and spacing. */
  lemma {:induction false} SizeGridTwice(k1: DPParams, k2: DPParams, h0: real)
    requires h0 != 0.0 && k1.w != 0.0 && k2.w != 0.0
    requires SizeGrid(k1, h0).Ok?
    requires k2.allowChangingBoxSize == k1.allowChangingBoxSize
    requires k2.Lx == SizeGrid(k1, h0).value.0.Lx && k2.Ly == SizeGrid(k1, h0).value.0.Ly
    ensures var g1 := SizeGrid(k1, h0).value;
            var g2 := SizeGrid(k2, h0);
            && g2.Ok?
            && g2.value.0.nx == g1.0.nx && g2.value.0.ny == g1.0.ny
            && g2.value.0.Lx == g1.0.Lx && g2.value.0.Ly == g1.0.Ly
            && g2.value.1 == g1.1
  {
    var n := EvenGridSize(k1.Lx / h0);
    var g1 := SizeGrid(k1, h0).value.0;
    if k1.allowChangingBoxSize {
      assert k2.Lx == g1.Lx == n as real * h0;
      ResizedBoxIsFixed(n, h0);
    } else {
      assert k2.Lx == g1.Lx == k1.Lx;
    }
    assert EvenGridSize(k2.Lx / h0) == n;
  }

  /** A box of `n` cells of spacing `h0` measures exactly `n` cells. */
  lemma ResizedBoxIsFixed(n: int, h0: real)
    requires h0 != 0.0
    ensures EvenGridSize((n as real * h0) / h0) == n
  {
    assert (n as real * h0) / h0 == n as real;
    assert IsWhole(n as real);
  }

  /** Running the derivation a second time on its own output, as a second
      `initialize` does: the cell counts and box are unchanged (in the
      resize branch `N*h/h = N` is even, so `N` is a fixed point), while the
      open sides of the z extent are padded again by the same amount. */
  lemma {:induction false} DeriveGridTwice(par: DPParams, m: WallMode, needsTorque: bool, nzActual: NodeEstimate)
    requires par.hydrodynamicRadius != 0.0
    requires DeriveGrid(par, m, needsTorque, nzActual).Ok?
    ensures var g1 := DeriveGrid(par, m, needsTorque, nzActual).value;
            var g2 := DeriveGrid(g1, m, needsTorque, nzActual);
            && g2.Ok?
            && g2.value.nx == g1.nx && g2.value.ny == g1.ny
            && g2.value.Lx == g1.Lx && g2.value.Ly == g1.Ly
            && g2.value.zmax - g1.zmax == g1.zmax - par.zmax
            && g2.value.zmin - g1.zmin == g1.zmin - par.zmin
  {
    var h0 := TargetSpacing(par.hydrodynamicRadius, needsTorque);
    var k1 := SelectKernel(par, needsTorque);
    var sized1 := SizeGrid(k1, h0).value;
    var g1 := DeriveGrid(par, m, needsTorque, nzActual).value;
    assert g1 == Vertical(sized1.0, m, sized1.1, nzActual);
    var k2 := SelectKernel(g1, needsTorque);
    SizeGridTwice(k1, k2, h0);
    var sized2 := SizeGrid(k2, h0).value;
    var g2 := DeriveGrid(g1, m, needsTorque, nzActual).value;
    assert g2 == Vertical(sized2.0, m, sized2.1, nzActual);
    PadTwice(m, k1.w, sized1.1, par.zmin, par.zmax);
  }

  /** Padding twice with the same kernel and spacing adds the same buffer
      each time. */
  lemma PadTwice(m: WallMode, w: real, h: real, zmin: real, zmax: real)
    ensures var z1 := PadZ(m, w, h, zmin, zmax);
            var z2 := PadZ(m, w, h, z1.0, z1.1);
            z2.1 - z1.1 == z1.1 - zmax && z2.0 - z1.0 == z1.0 - zmin
  {
  }

  /** The record `initialize` starts from: the stored one with the new
      viscosity, the wall mode and the first radius. */
  function Prepared(s: Solver, p: Parameters): (par: DPParams)
    requires |p.hydrodynamicRadius| >= 1
    ensures par.viscosity == p.viscosity && par.hydrodynamicRadius == p.hydrodynamicRadius[0]
    ensures par.mode == WallModeName(s.wallmode)
    ensures par.(viscosity := s.dppar.viscosity, mode := s.dppar.mode,
                 hydrodynamicRadius := s.dppar.hydrodynamicRadius) == s.dppar
  {
    s.dppar.(viscosity := p.viscosity, mode := WallModeName(s.wallmode), hydrodynamicRadius := p.hydrodynamicRadius[0])
  }

  /** `DPStokes::clean`: the base clean, then the engine is cleared. The
      handle must exist. */
  function Clean(s: Solver): (r: Solver)
    requires s.engine.Some?
    ensures r.base == Mobility.Clean(s.base) && r.engine == Some(Idle)
    ensures r.(base := s.base, engine := s.engine) == s
  {
    s.(base := Mobility.Clean(s.base), engine := Some(Idle))
  }

  lemma CleanIdempotent(s: Solver)
    requires s.engine.Some?
    ensures Clean(Clean(s)) == Clean(s)
  {
  }

  /** `DPStokes::initialize` as written: derive the grid, set up the engine
      with it, then run `Mobility::initialize`, whose `this->clean()` on an
      already initialised object dispatches to `DPStokes::clean` and clears
      the engine just set up. The handle must exist. */
  function Initialize(s: Solver, p: Parameters, nzActual: NodeEstimate): (r: Result<Solver>)
    requires s.engine.Some?
    requires |p.hydrodynamicRadius| >= 1 && p.hydrodynamicRadius[0] != 0.0
    ensures var g := DeriveGrid(Prepared(s, p), s.wallmode, p.needsTorque, nzActual);
            && (r.Ok? <==> g.Ok?)
            && (r.Ok? ==>
                  && r.value.dppar == g.value
                  && r.value.wallmode == s.wallmode
                  && r.value.numberParticles == p.numberParticles
                  && r.value.temperature == p.temperature
                  && r.value.lanczosTolerance == p.tolerance
                  && r.value.base == Mobility.Initialize(s.base, p)
                  && (!s.base.initialized ==> r.value.engine == Some(Ready(g.value, p.numberParticles)))
                  && (s.base.initialized ==> r.value.engine == Some(Idle)))
  {
    var grid :- DeriveGrid(Prepared(s, p), s.wallmode, p.needsTorque, nzActual);
    var s1 := s.(numberParticles := p.numberParticles, temperature := p.temperature,
                 lanczosTolerance := p.tolerance, dppar := grid,
                 engine := Some(Ready(grid, p.numberParticles)));
    var s2 := if s1.base.initialized then Clean(s1) else s1;
    Ok(s2.(base := Mobility.Record(s2.base, p)))
  }

  /** `initialize` with the base initialised first, so that the virtual
      clean runs before, not after, the engine set-up: the engine always
      ends up set up with the derived grid. */
  function InitializeBaseFirst(s: Solver, p: Parameters, nzActual: NodeEstimate): (r: Result<Solver>)
    requires s.engine.Some?
    requires |p.hydrodynamicRadius| >= 1 && p.hydrodynamicRadius[0] != 0.0
    ensures var g := DeriveGrid(Prepared(s, p), s.wallmode, p.needsTorque, nzActual);
            && (r.Ok? <==> g.Ok?)
            && (r.Ok? ==>
                  && r.value.dppar == g.value
                  && r.value.base == Mobility.Initialize(s.base, p)
                  && r.value.engine == Some(Ready(g.value, p.numberParticles)))
    ensures r.Ok? ==> r.value == Initialize(s, p, nzActual).value.(engine := r.value.engine)
  {
    var grid :- DeriveGrid(Prepared(s, p), s.wallmode, p.needsTorque, nzActual);
    var s1 := if s.base.initialized then Clean(s) else s;
    var s2 := s1.(base := Mobility.Record(s1.base, p));
    Ok(s2.(numberParticles := p.numberParticles, temperature := p.temperature,
           lanczosTolerance := p.tolerance, dppar := grid,
           engine := Some(Ready(grid, p.numberParticles))))
  }

  /** The life of a solver constructed, configured and initialised twice
      with the same parameters. */
  function TwiceInitialized(conf: Configuration, defaults: DPParams, temperature0: real, par: DPParams,
                            p: Parameters, nzActual: NodeEstimate, baseFirst: bool): Result<Solver>
    requires |p.hydrodynamicRadius| >= 1 && p.hydrodynamicRadius[0] != 0.0
  {
    var s0 :- New(conf, defaults, temperature0);
    var s1 := SetParameters(s0, par);
    var s2 :- if baseFirst then InitializeBaseFirst(s1, p, nzActual) else Initialize(s1, p, nzActual);
    if baseFirst then InitializeBaseFirst(s2, p, nzActual) else Initialize(s2, p, nzActual)
  }

  /** As written, the second `initialize` leaves the engine cleared, although
      the parameters it derived are stored: the solver then computes with an
      engine that has been torn down. */
  lemma {:induction false} ReinitializeClearsEngine(conf: Configuration, defaults: DPParams, temperature0: real,
                                                    par: DPParams, p: Parameters, nzActual: NodeEstimate)
    requires |p.hydrodynamicRadius| >= 1 && p.hydrodynamicRadius[0] != 0.0
    requires TwiceInitialized(conf, defaults, temperature0, par, p, nzActual, false).Ok?
    ensures TwiceInitialized(conf, defaults, temperature0, par, p, nzActual, false).value.engine == Some(Idle)
  {
    var s1 := SetParameters(New(conf, defaults, temperature0).value, par);
    var s2 := Initialize(s1, p, nzActual).value;
    assert s2.base.initialized;
  }

  /** With the base initialised first, the engine is set up after every
      `initialize`, with the grid the second derivation produced. */
  lemma {:induction false} ReinitializeKeepsEngine(conf: Configuration, defaults: DPParams, temperature0: real,
                                                   par: DPParams, p: Parameters, nzActual: NodeEstimate)
    requires |p.hydrodynamicRadius| >= 1 && p.hydrodynamicRadius[0] != 0.0
    requires TwiceInitialized(conf, defaults, temperature0, par, p, nzActual, true).Ok?
    ensures var s := TwiceInitialized(conf, defaults, temperature0, par, p, nzActual, true).value;
            s.engine == Some(Ready(s.dppar, p.numberParticles))
  {
  }

  /** A second `initialize` with unchanged parameters keeps the grid size
      and box but pads the open sides of the z extent once more. */
  lemma {:induction false} SecondInitializePadsAgain(s: Solver, p: Parameters, nzActual: NodeEstimate)
    requires s.engine.Some?
    requires |p.hydrodynamicRadius| >= 1 && p.hydrodynamicRadius[0] != 0.0
    requires Initialize(s, p, nzActual).Ok?
    ensures var s1 := Initialize(s, p, nzActual).value;
            var s2 := Initialize(s1, p, nzActual);
            && s2.Ok?
            && s2.value.dppar.nx == s1.dppar.nx && s2.value.dppar.Lx == s1.dppar.Lx
            && s2.value.dppar.zmax - s1.dppar.zmax == s1.dppar.zmax - Prepared(s, p).zmax
            && s2.value.dppar.zmin - s1.dppar.zmin == s1.dppar.zmin - Prepared(s, p).zmin
  {
    var par := Prepared(s, p);
    var s1 := Initialize(s, p, nzActual).value;
    DeriveGridTwice(par, s.wallmode, p.needsTorque, nzActual);
    assert Prepared(s1, p) == s1.dppar;
  }

  /** With no wall (open z) and a positive radius the padding is strictly
      positive on both sides, so repeated `initialize` calls keep growing
      the vertical extent. */
  lemma PaddingGrowsOpenBox(s: Solver, p: Parameters, nzActual: NodeEstimate)
    requires s.engine.Some? && s.wallmode == NoWall
    requires |p.hydrodynamicRadius| >= 1 && p.hydrodynamicRadius[0] > 0.0
    requires Initialize(s, p, nzActual).Ok?
    requires s.dppar.Lx > 0.0
    ensures var s1 := Initialize(s, p, nzActual).value;
            s1.dppar.zmax > s.dppar.zmax && s1.dppar.zmin < s.dppar.zmin
  {
    var par := Prepared(s, p);
    var k := SelectKernel(par, p.needsTorque);
    var h0 := TargetSpacing(par.hydrodynamicRadius, p.needsTorque);
    assert h0 > 0.0;
    var sized := SizeGrid(k, h0).value;
    if !par.allowChangingBoxSize {
      var n := EvenGridSize(par.Lx / h0);
      assert par.Lx / h0 > 0.0;
      assert n >= 0;
      assert n != 0;
      assert sized.1 * n as real == par.Lx;
      assert sized.1 > 0.0;
    }
    assert sized.1 > 0.0;
    assert k.w > 0.0;
  }
}

=== FILE: mobility.dfy ===
/** The lifecycle and default stochastic displacement of the `Mobility` base
    class (include/MobilityInterface/MobilityInterface.h). The Lanczos solver
    it delegates to is an input function; the solver's own `Mdot` is an input
    function too, so that every solver reusing the base can plug its own in. */
module Mobility {
  import opened Results
  import opened Periodicity

  /** Number of reals a loop bounded by `3*numberParticles` visits. */
  function Span(n: int): (k: nat)
    ensures n > 0 ==> k == 3 * n
    ensures n <= 0 ==> k == 0
  {
    if n > 0 then 3 * n else 0
  }

  /** The first `k` reals of `s` (all of `s` when it is shorter). */
  function Take(s: seq<real>, k: nat): (r: seq<real>)
    ensures k <= |s| ==> r == s[..k]
    ensures |s| < k ==> r == s
  {
    if k <= |s| then s[..k] else s
  }

  /** What is left of `s` after its first `k` reals. */
  function Drop(s: seq<real>, k: nat): (r: seq<real>)
    ensures k <= |s| ==> r == s[k..]
    ensures |s| < k ==> r == []
  {
    if k <= |s| then s[k..] else []
  }

  /** `std::copy` of `src` to the front of `dst`: the first `|src|` reals of
      `dst` are replaced, the rest keep their values, the length is kept. */
  function Overlay(dst: seq<real>, src: seq<real>): (r: seq<real>)
    ensures |r| == |dst|
    ensures forall i :: 0 <= i < |dst| && i < |src| ==> r[i] == src[i]
    ensures forall i :: |src| <= i < |dst| ==> r[i] == dst[i]
  {
    seq(|dst|, i requires 0 <= i < |dst| => if i < |src| then src[i] else dst[i])
  }

  function Zeros(n: nat): (r: seq<real>)
    ensures |r| == n
    ensures forall i :: 0 <= i < n ==> r[i] == 0.0
  {
    seq(n, i => 0.0)
  }

  /** `std::vector::resize`: keeps the common prefix, pads with zeros. */
  function Resize(s: seq<real>, n: nat): (r: seq<real>)
    ensures |r| == n
    ensures forall i :: 0 <= i < n && i < |s| ==> r[i] == s[i]
    ensures forall i :: |s| <= i < n ==> r[i] == 0.0
  {
    if n <= |s| then s[..n] else s + Zeros(n - |s|)
  }

  /** Output buffers of a velocity computation: `linear` is always present,
      `angular` may be a null pointer. */
  datatype Velocities = Velocities(linear: seq<real>, angular: Option<seq<real>>)

  /** A solver's `Mdot(forces, torques, linear, angular)`: null inputs are
      `None`, and the result is the output buffers after the call. */
  type MdotFn = (Option<seq<real>>, Option<seq<real>>, Velocities) -> Velocities

  /** The operator a Lanczos solver applies: (input vector, output buffer)
      to the output buffer after the call. */
  type Operator = (seq<real>, seq<real>) -> seq<real>

  /** A Lanczos workspace: the element count, tolerance and seed it was
      built with, and the number of `sqrtMdotW` calls it has served, which
      stands for the position of its random generator. */
  datatype Lanczos = Lanczos(elements: int, tolerance: real, seed: nat, calls: nat)

  /** The workspace as it was built, before serving any call. */
  function AsBuilt(w: Lanczos): (r: Lanczos)
    ensures r.calls == 0 && r.(calls := w.calls) == w
  {
    w.(calls := 0)
  }

  /** The Lanczos solver's `sqrtMdotW(operator, buffer, prefactor)`: the
      values it writes over the front of the buffer it is handed. The
      workspace it is given has already counted the current call, so the
      random vector it draws may differ from call to call. */
  type LanczosFn = (Lanczos, Operator, seq<real>, real) -> seq<real>

  /** The private members of the base class. */
  datatype Base = Base(
    initialized: bool,
    numberParticles: int,
    lanczosSeed: nat,
    lanczosTolerance: real,
    lanczos: Option<Lanczos>,
    lanczosOutput: seq<real>,
    temperature: real,
    needsTorque: bool)

  const NotInitialized := "[libMobility] You must initialize the base class in order to use the default stochastic displacement computation"
  const AngularRequired := "[libMobility] This solver requires angular velocities when configured with torques"
  const LengthError := "std::length_error"

  /** A freshly constructed base. Only `initialized` and `needsTorque` have
      member initialisers. `temperature` is read by `sqrtMdotW` before the
      initialised check, so its indeterminate value is a parameter; the other
      members are never read before `initialize` writes them. */
  function NewBase(temperature: real): (b: Base)
    ensures !b.initialized && !b.needsTorque && b.temperature == temperature
    ensures b.lanczos.None? && b.lanczosOutput == []
    ensures Valid(b)
  {
    Base(false, 0, 0, 0.0, None, [], temperature, false)
  }

  /** Number of particles' worth of unknowns the Lanczos workspace covers:
      one block of three per particle, two with torques. */
  function Elements(b: Base): int {
    if b.needsTorque then 2 * b.numberParticles else b.numberParticles
  }

  /** What the base keeps true between calls: no workspace before the first
      `initialize`, and a workspace always matches the recorded parameters
      and owns an output buffer of three reals per element. */
  ghost predicate Valid(b: Base) {
    && (!b.initialized ==> b.lanczos.None? && b.lanczosOutput == [])
    && (b.lanczos.Some? ==>
          && AsBuilt(b.lanczos.value) == Lanczos(Elements(b), b.lanczosTolerance, b.lanczosSeed, 0)
          && Elements(b) >= 0
          && |b.lanczosOutput| == 3 * Elements(b))
  }

  /** `Mobility::clean`: drops the workspace and empties the buffer; the
      `initialized` flag and the recorded parameters stay. */
  function Clean(b: Base): (r: Base)
    ensures r.lanczos.None? && r.lanczosOutput == []
    ensures r.initialized == b.initialized
    ensures r.(lanczos := b.lanczos, lanczosOutput := b.lanczosOutput) == b
  {
    b.(lanczos := None, lanczosOutput := [])
  }

  lemma CleanIdempotent(b: Base)
    ensures Clean(Clean(b)) == Clean(b)
  {
  }

  lemma CleanPreservesValid(b: Base)
    requires Valid(b)
    ensures Valid(Clean(b))
  {
  }

  /** The assignments of `Mobility::initialize`, after any clean. */
  function Record(b: Base, p: Parameters): (r: Base)
    ensures r.initialized
    ensures r.numberParticles == p.numberParticles && r.lanczosSeed == p.seed
    ensures r.lanczosTolerance == p.tolerance && r.temperature == p.temperature
    ensures r.needsTorque == p.needsTorque
    ensures r.lanczos == b.lanczos && r.lanczosOutput == b.lanczosOutput
  {
    b.(initialized := true, numberParticles := p.numberParticles, lanczosSeed := p.seed,
       lanczosTolerance := p.tolerance, temperature := p.temperature, needsTorque := p.needsTorque)
  }

  /** `Mobility::initialize` when the object's `clean` is the base one: an
      initialised object is cleaned first, then the new parameters are
      recorded. A solver that overrides `clean` composes `Record` with its
      own clean instead. */
  function Initialize(b: Base, p: Parameters): (r: Base)
    ensures r.initialized
    ensures r.numberParticles == p.numberParticles && r.lanczosSeed == p.seed
    ensures r.lanczosTolerance == p.tolerance && r.temperature == p.temperature
    ensures r.needsTorque == p.needsTorque
    ensures b.initialized ==> r.lanczos.None? && r.lanczosOutput == []
    ensures !b.initialized ==> r.lanczos == b.lanczos && r.lanczosOutput == b.lanczosOutput
  {
    Record(if b.initialized then Clean(b) else b, p)
  }

  /** A workspace never survives a re-initialisation, so it always matches
      the parameters of the latest `initialize`. */
  lemma InitializePreservesValid(b: Base, p: Parameters)
    requires Valid(b)
    ensures Valid(Initialize(b, p))
    ensures Initialize(b, p).lanczos.None?
  {
  }

  /** `getNumberParticles`. */
  function NumberParticles(b: Base): int {
    b.numberParticles
  }

  /** `getNeedsTorque`. */
  function NeedsTorque(b: Base): bool {
    b.needsTorque
  }

  /** The getters report the latest `initialize`'s parameters, whatever
      the state before. */
  lemma GettersReportParameters(b: Base, p: Parameters)
    ensures NumberParticles(Initialize(b, p)) == p.numberParticles
    ensures NeedsTorque(Initialize(b, p)) == p.needsTorque
  {
  }

  /** An `Mdot` writes through the pointers it is given: an angular buffer
      is present afterwards exactly when it was before. */
  ghost predicate KeepsPointers(mdot: MdotFn) {
    forall f: Option<seq<real>>, t: Option<seq<real>>, o: Velocities ::
      mdot(f, t, o).angular.Some? <==> o.angular.Some?
  }

  /** The operator handed to the Lanczos solver. The input vector holds the
      forces in its first `3N` reals and, with torques, the torques after
      them; the output buffer receives linear velocities in its first `3N`
      reals and, with torques, angular velocities after them. Without torques
      both the torque input and the angular output are null. */
  function LanczosOperator(mdot: MdotFn, n: int, needsTorque: bool): Operator {
    (f: seq<real>, mv: seq<real>) =>
      var k := Span(n);
      var v := mdot(Some(Take(f, k)),
                    if needsTorque then Some(Drop(f, k)) else None,
                    Velocities(Take(mv, k), if needsTorque then Some(Drop(mv, k)) else None));
      Overlay(mv, Overlay(Take(mv, k), v.linear)
                  + (if needsTorque && v.angular.Some? then Overlay(Drop(mv, k), v.angular.value) else Drop(mv, k)))
  }

  /** How the operator splits its vectors at `3N`: `mdot` reads the forces
      from the first `3N` reals of the input and, with torques only, the
      torques from the rest; the linear velocities land in the first `3N`
      reals of the output and, with torques only, the angular velocities
      after them. Without torques the rest of the output keeps its values. */
  lemma LanczosOperatorSplit(mdot: MdotFn, n: int, needsTorque: bool, f: seq<real>, mv: seq<real>)
    requires Span(n) <= |mv|
    ensures var k := Span(n);
            var v := mdot(Some(Take(f, k)), if needsTorque then Some(Drop(f, k)) else None,
                          Velocities(mv[..k], if needsTorque then Some(mv[k..]) else None));
            var r := LanczosOperator(mdot, n, needsTorque)(f, mv);
            && |r| == |mv|
            && (forall i :: 0 <= i < k ==> r[i] == (if i < |v.linear| then v.linear[i] else mv[i]))
            && (forall i :: k <= i < |mv| ==>
                  r[i] == (if needsTorque && v.angular.Some? && i - k < |v.angular.value|
                           then v.angular.value[i - k] else mv[i]))
  {
    var k := Span(n);
    var v := mdot(Some(Take(f, k)), if needsTorque then Some(Drop(f, k)) else None,
                  Velocities(mv[..k], if needsTorque then Some(mv[k..]) else None));
    var head := Overlay(mv[..k], v.linear);
    var tail := if needsTorque && v.angular.Some? then Overlay(mv[k..], v.angular.value) else mv[k..];
    assert LanczosOperator(mdot, n, needsTorque)(f, mv) == Overlay(mv, head + tail);
    assert |head + tail| == |mv|;
    forall i | k <= i < |mv|
      ensures (head + tail)[i] == tail[i - k]
    {
    }
  }

  /** Without torques the operator never reads its input beyond the first
      `3N` reals: two inputs that agree there give the same output. */
  lemma LanczosOperatorReadsForcesOnly(mdot: MdotFn, n: int, f1: seq<real>, f2: seq<real>, mv: seq<real>)
    requires Take(f1, Span(n)) == Take(f2, Span(n))
    ensures LanczosOperator(mdot, n, false)(f1, mv) == LanczosOperator(mdot, n, false)(f2, mv)
  {
  }

  /** The lazy construction at the top of `sqrtMdotW`: a zero seed is
      replaced from the entropy source, the workspace covers `Elements`
      blocks and its buffer is resized to three reals per element. A negative
      element count makes the resize throw after the workspace was built. */
  function BuildWorkspace(b: Base, entropy: nat): (r: Step<Base, ()>)
    ensures r.state.lanczosSeed == (if b.lanczosSeed == 0 then entropy else b.lanczosSeed)
    ensures r.state.lanczos == Some(Lanczos(Elements(b), b.lanczosTolerance, r.state.lanczosSeed, 0))
    ensures r.result.Ok? <==> Elements(b) >= 0
    ensures r.result.Ok? ==> |r.state.lanczosOutput| == 3 * Elements(b)
    ensures r.state.(lanczosSeed := b.lanczosSeed, lanczos := b.lanczos, lanczosOutput := b.lanczosOutput) == b
  {
    var seed := if b.lanczosSeed == 0 then entropy else b.lanczosSeed;
    var elements := Elements(b);
    var b1 := b.(lanczosSeed := seed, lanczos := Some(Lanczos(elements, b.lanczosTolerance, seed, 0)));
    if elements < 0 then Step(b1, Err(LengthError))
    else Step(b1.(lanczosOutput := Resize(b.lanczosOutput, 3 * elements)), Ok(()))
  }

  /** The default `sqrtMdotW`. Zero temperature or zero prefactor return at
      once, before the initialised check; otherwise an uninitialised base
      throws; the workspace is built once; a missing angular buffer is
      rejected when torques are on; then the zeroed buffer is filled by the
      Lanczos solver and split at `3N` into `linear` and, with torques,
      `angular`. */
  function SqrtMdotW(b: Base, mdot: MdotFn, lanczos: LanczosFn, entropy: nat,
                     out: Velocities, prefactor: real): (r: Step<Base, Velocities>)
    ensures b.temperature == 0.0 || prefactor == 0.0 ==> r == Step(b, Ok(out))
    ensures b.temperature != 0.0 && prefactor != 0.0 && !b.initialized ==>
              r == Step(b, Err(NotInitialized))
    ensures r.state.(lanczosSeed := b.lanczosSeed, lanczos := b.lanczos, lanczosOutput := b.lanczosOutput) == b
    ensures b.temperature != 0.0 && prefactor != 0.0 && b.initialized ==>
              (r.result.Err? <==> (b.lanczos.None? && Elements(b) < 0) || (b.needsTorque && out.angular.None?))
    ensures b.temperature != 0.0 && prefactor != 0.0 && b.initialized && b.lanczos.None? && Elements(b) < 0 ==>
              r.result == Err(LengthError)
    ensures b.lanczos.Some? ==> r.state.lanczos.Some? && AsBuilt(r.state.lanczos.value) == AsBuilt(b.lanczos.value)
    ensures r.result.Err? && b.lanczos.Some? ==> r.state.lanczos == b.lanczos
    ensures r.result.Ok? && b.temperature != 0.0 && prefactor != 0.0 ==>
              && r.state.lanczos.Some?
              && r.state.lanczos.value.calls == (if b.lanczos.Some? then b.lanczos.value.calls else 0) + 1
    ensures b.temperature != 0.0 && prefactor != 0.0 && b.initialized ==>
              && r.state.lanczos.Some?
              && (b.lanczos.None? ==>
                    && r.state.lanczos.value.elements == Elements(b)
                    && r.state.lanczosSeed == (if b.lanczosSeed == 0 then entropy else b.lanczosSeed))
    ensures b.temperature != 0.0 && prefactor != 0.0 && b.initialized && b.needsTorque
            && out.angular.None? && (b.lanczos.Some? || Elements(b) >= 0) ==>
              r.result == Err(AngularRequired)
    ensures r.result.Ok? && b.temperature != 0.0 && prefactor != 0.0 ==>
              var buf := r.state.lanczosOutput;
              var v := r.result.value;
              var k := Span(b.numberParticles);
              && |v.linear| == |out.linear|
              && (forall i :: 0 <= i < |out.linear| && i < k && i < |buf| ==> v.linear[i] == buf[i])
              && (forall i :: k <= i < |out.linear| ==> v.linear[i] == out.linear[i])
              && (!b.needsTorque ==> v.angular == out.angular)
              && (b.needsTorque ==>
                    && out.angular.Some? && v.angular.Some?
                    && v.angular.value == Overlay(out.angular.value, Drop(buf, k)))
    ensures r.result.Ok? && b.temperature != 0.0 && prefactor != 0.0 ==>
              var zeroed := Zeros(|r.state.lanczosOutput|);
              && r.state.lanczos.Some?
              && r.state.lanczosOutput
                 == Overlay(zeroed, lanczos(r.state.lanczos.value,
                                            LanczosOperator(mdot, b.numberParticles, b.needsTorque),
                                            zeroed, prefactor))
  {
    if b.temperature == 0.0 || prefactor == 0.0 then Step(b, Ok(out))
    else if !b.initialized then Step(b, Err(NotInitialized))
    else
      var built := if b.lanczos.Some? then Step(b, Ok(())) else BuildWorkspace(b, entropy);
      var b1 := built.state;
      if built.result.Err? then Step(b1, Err(built.result.message))
      else if b1.needsTorque && out.angular.None? then Step(b1, Err(AngularRequired))
      else
        var k := Span(b1.numberParticles);
        var zeroed := Zeros(|b1.lanczosOutput|);
        var w := b1.lanczos.value.(calls := b1.lanczos.value.calls + 1);
        var written := lanczos(w, LanczosOperator(mdot, b1.numberParticles, b1.needsTorque),
                               zeroed, prefactor);
        var buf := Overlay(zeroed, written);
        var linear := Overlay(out.linear, Take(buf, k));
        var angular := if b1.needsTorque then Some(Overlay(out.angular.value, Drop(buf, k))) else out.angular;
        Step(b1.(lanczos := Some(w), lanczosOutput := buf), Ok(Velocities(linear, angular)))
  }

  /** Between two `initialize` calls the workspace and its buffer keep
      matching the recorded parameters: `sqrtMdotW` builds a workspace of
      `Elements` blocks with a buffer of three reals per element, and never
      rebuilds one that exists. */
  lemma SqrtMdotWPreservesValid(b: Base, mdot: MdotFn, lanczos: LanczosFn, entropy: nat,
                                out: Velocities, prefactor: real)
    requires Valid(b)
    requires b.numberParticles >= 0
    ensures var r := SqrtMdotW(b, mdot, lanczos, entropy, out, prefactor);
            && Valid(r.state)
            && (r.state.lanczos.Some? ==> |r.state.lanczosOutput| == 3 * Elements(b))
  {
  }

  /** A second `sqrtMdotW` reuses the workspace the first one built. */
  lemma WorkspaceBuiltOnce(b: Base, mdot: MdotFn, lanczos: LanczosFn, e1: nat, e2: nat,
                           out1: Velocities, out2: Velocities, p1: real, p2: real)
    requires b.temperature != 0.0 && p1 != 0.0 && b.initialized
    ensures var b1 := SqrtMdotW(b, mdot, lanczos, e1, out1, p1).state;
            var b2 := SqrtMdotW(b1, mdot, lanczos, e2, out2, p2).state;
            b1.lanczos.Some? && b2.lanczos.Some? && AsBuilt(b2.lanczos.value) == AsBuilt(b1.lanczos.value)
  {
  }

  /** Each thermal call is one more use of the workspace's generator: the
      second of two successful calls hands the Lanczos solver a workspace
      one call further on than the first did, so the two calls may draw
      different random vectors. */
  lemma ThermalCallsAdvance(b: Base, mdot: MdotFn, lanczos: LanczosFn, e1: nat, e2: nat,
                            out1: Velocities, out2: Velocities, p1: real, p2: real)
    requires Valid(b) && b.initialized && b.numberParticles >= 0
    requires b.temperature != 0.0 && p1 != 0.0 && p2 != 0.0
    requires b.needsTorque ==> out1.angular.Some? && out2.angular.Some?
    ensures var r1 := SqrtMdotW(b, mdot, lanczos, e1, out1, p1);
            var r2 := SqrtMdotW(r1.state, mdot, lanczos, e2, out2, p2);
            && r1.result.Ok? && r2.result.Ok?
            && r1.state.lanczos.Some? && r2.state.lanczos.Some?
            && r2.state.lanczos.value.calls == r1.state.lanczos.value.calls + 1
            && r2.state.lanczos.value != r1.state.lanczos.value
            && AsBuilt(r2.state.lanczos.value) == AsBuilt(r1.state.lanczos.value)
  {
  }

  /** The base `hydrodynamicVelocities`: `Mdot` only when forces or torques
      are given, then always `sqrtMdotW` on the same buffers. */
  function HydrodynamicVelocities(b: Base, mdot: MdotFn, lanczos: LanczosFn, entropy: nat,
                                  forces: Option<seq<real>>, torques: Option<seq<real>>,
                                  out: Velocities, prefactor: real): (r: Step<Base, Velocities>)
    ensures forces.None? && torques.None? ==> r == SqrtMdotW(b, mdot, lanczos, entropy, out, prefactor)
    ensures b.temperature == 0.0 || prefactor == 0.0 ==>
              r == Step(b, Ok(if forces.Some? || torques.Some? then mdot(forces, torques, out) else out))
    ensures b.temperature != 0.0 && prefactor != 0.0 && (KeepsPointers(mdot) || !b.needsTorque) ==>
              r.state == SqrtMdotW(b, mdot, lanczos, entropy, out, prefactor).state
    ensures r.result.Ok? && b.temperature != 0.0 && prefactor != 0.0 ==>
              var det := if forces.Some? || torques.Some? then mdot(forces, torques, out) else out;
              var buf := r.state.lanczosOutput;
              var v := r.result.value;
              var k := Span(b.numberParticles);
              && |v.linear| == |det.linear|
              && (forall i :: 0 <= i < |v.linear| && i < k && i < |buf| ==> v.linear[i] == buf[i])
              && (forall i :: k <= i < |v.linear| ==> v.linear[i] == det.linear[i])
              && (!b.needsTorque ==> v.angular == det.angular)
              && (b.needsTorque ==>
                    && det.angular.Some? && v.angular.Some?
                    && v.angular.value == Overlay(det.angular.value, Drop(buf, k)))
    ensures b.temperature != 0.0 && prefactor != 0.0 && b.initialized ==>
              var det := if forces.Some? || torques.Some? then mdot(forces, torques, out) else out;
              (r.result.Err? <==> (b.lanczos.None? && Elements(b) < 0) || (b.needsTorque && det.angular.None?))
  {
    var det := if forces.Some? || torques.Some? then mdot(forces, torques, out) else out;
    SqrtMdotWStateIgnoresBuffers(b, mdot, lanczos, entropy, det, out, prefactor);
    SqrtMdotW(b, mdot, lanczos, entropy, det, prefactor)
  }

  /** The state `sqrtMdotW` leaves behind does not depend on the buffers it
      is handed: the workspace and the Lanczos buffer are the same whatever
      the caller's velocities hold, as long as an angular buffer is present
      in both calls or in neither when torques are on. */
  lemma SqrtMdotWStateIgnoresBuffers(b: Base, mdot: MdotFn, lanczos: LanczosFn, entropy: nat,
                                     o1: Velocities, o2: Velocities, prefactor: real)
    ensures (b.needsTorque ==> (o1.angular.Some? <==> o2.angular.Some?)) ==>
            SqrtMdotW(b, mdot, lanczos, entropy, o1, prefactor).state
            == SqrtMdotW(b, mdot, lanczos, entropy, o2, prefactor).state
  {
  }

  /** As written, a thermal step overwrites the front of `linear` with the
      Lanczos buffer, which does not depend on the forces: two different
      force vectors yield the same linear velocities. */
  lemma HydrodynamicVelocitiesIgnoresForces(b: Base, mdot: MdotFn, lanczos: LanczosFn, entropy: nat,
                                            f1: seq<real>, f2: seq<real>, out: Velocities, prefactor: real)
    requires Valid(b) && b.initialized && !b.needsTorque && b.numberParticles >= 0
    requires b.temperature != 0.0 && prefactor != 0.0
    ensures var r1 := HydrodynamicVelocities(b, mdot, lanczos, entropy, Some(f1), None, out, prefactor);
            var r2 := HydrodynamicVelocities(b, mdot, lanczos, entropy, Some(f2), None, out, prefactor);
            && r1.result.Ok? && r2.result.Ok?
            && forall i :: 0 <= i < Span(b.numberParticles) && i < |r1.result.value.linear|
                           && i < |r2.result.value.linear| ==>
                 r1.result.value.linear[i] == r2.result.value.linear[i]
  {
  }

  /** Elementwise sum; `b` padded with zeros where it is shorter. */
  function Add(a: seq<real>, b: seq<real>): (r: seq<real>)
    ensures |r| == |a|
    ensures forall i :: 0 <= i < |a| && i < |b| ==> r[i] == a[i] + b[i]
    ensures forall i :: |b| <= i < |a| ==> r[i] == a[i]
  {
    seq(|a|, i requires 0 <= i < |a| => a[i] + (if i < |b| then b[i] else 0.0))
  }

  lemma AddZeros(a: seq<real>, n: nat)
    ensures Add(a, Zeros(n)) == a
  {
    assert forall i :: 0 <= i < |a| ==> Add(a, Zeros(n))[i] == a[i];
  }

  lemma AddZerosBoth(v: Velocities)
    ensures Add(v.linear, Zeros(|v.linear|)) == v.linear
    ensures v.angular.Some? ==> Add(v.angular.value, Zeros(|v.angular.value|)) == v.angular.value
  {
    AddZeros(v.linear, |v.linear|);
    if v.angular.Some? {
      AddZeros(v.angular.value, |v.angular.value|);
    }
  }

  /** The deterministic part followed by the thermal part computed into a
      buffer of its own and added, as the interface documents: velocities
      are `Mdot(forces)` plus `sqrtMdotW`. */
  function SummedVelocities(b: Base, mdot: MdotFn, lanczos: LanczosFn, entropy: nat,
                            forces: Option<seq<real>>, torques: Option<seq<real>>,
                            out: Velocities, prefactor: real): (r: Step<Base, Velocities>)
    ensures var det := if forces.Some? || torques.Some? then mdot(forces, torques, out) else out;
            b.temperature == 0.0 || prefactor == 0.0 ==> r == Step(b, Ok(det))
    ensures var det := if forces.Some? || torques.Some? then mdot(forces, torques, out) else out;
            var sto := SqrtMdotW(b, mdot, lanczos, entropy,
                                 Velocities(Zeros(|det.linear|), if det.angular.Some? then Some(Zeros(|det.angular.value|)) else None),
                                 prefactor);
            && r.state == sto.state
            && (r.result.Ok? <==> sto.result.Ok?)
            && (r.result.Ok? ==>
                  && |r.result.value.linear| == |det.linear|
                  && forall i :: 0 <= i < |det.linear| && i < |sto.result.value.linear| ==>
                       r.result.value.linear[i] == det.linear[i] + sto.result.value.linear[i])
    ensures var det := if forces.Some? || torques.Some? then mdot(forces, torques, out) else out;
            var sto := SqrtMdotW(b, mdot, lanczos, entropy,
                                 Velocities(Zeros(|det.linear|), if det.angular.Some? then Some(Zeros(|det.angular.value|)) else None),
                                 prefactor);
            r.result.Ok? ==>
              && (det.angular.None? ==> r.result.value.angular.None?)
              && (det.angular.Some? ==>
                    && sto.result.value.angular.Some?
                    && r.result.value.angular.Some?
                    && |r.result.value.angular.value| == |det.angular.value|
                    && forall i :: 0 <= i < |det.angular.value| && i < |sto.result.value.angular.value| ==>
                         r.result.value.angular.value[i] == det.angular.value[i] + sto.result.value.angular.value[i])
  {
    var det := if forces.Some? || torques.Some? then mdot(forces, torques, out) else out;
    var zero := Velocities(Zeros(|det.linear|), if det.angular.Some? then Some(Zeros(|det.angular.value|)) else None);
    var sto := SqrtMdotW(b, mdot, lanczos, entropy, zero, prefactor);
    if sto.result.Err? then Step(sto.state, Err(sto.result.message))
    else
      var angular := if det.angular.Some? && sto.result.value.angular.Some?
                     then Some(Add(det.angular.value, sto.result.value.angular.value))
                     else det.angular;
      if b.temperature == 0.0 || prefactor == 0.0 then
        AddZerosBoth(det);
        Step(sto.state, Ok(Velocities(Add(det.linear, sto.result.value.linear), angular)))
      else
        Step(sto.state, Ok(Velocities(Add(det.linear, sto.result.value.linear), angular)))
  }

  /** The summed velocities exceed the as-written ones by exactly the
      deterministic `Mdot` term on the first `3N` linear components. */
  lemma SummedRestoresMdot(b: Base, mdot: MdotFn, lanczos: LanczosFn, entropy: nat,
                           f: seq<real>, out: Velocities, prefactor: real)
    requires Valid(b) && b.initialized && !b.needsTorque && b.numberParticles >= 0
    requires b.temperature != 0.0 && prefactor != 0.0
    ensures var det := mdot(Some(f), None, out);
            var fixed := SummedVelocities(b, mdot, lanczos, entropy, Some(f), None, out, prefactor);
            var written := HydrodynamicVelocities(b, mdot, lanczos, entropy, Some(f), None, out, prefactor);
            && fixed.result.Ok? && written.result.Ok?
            && forall i :: 0 <= i < Span(b.numberParticles) && i < |det.linear| ==>
                 fixed.result.value.linear[i] == det.linear[i] + written.result.value.linear[i]
  {
  }
}

=== FILE: nbody.dfy ===
/** The NBody solver's bookkeeping around the batched Rotne-Prager-Yamakawa
    kernels: the kernel chosen from the configuration, the batch layout,
    the self mobility and the stored positions. The kernels themselves are
    not part of this model. */
module NBody {
  import opened Results
  import opened Periodicity
  import opened Stokes
  import Mobility

  const NotOpenInPlane := "[Mobility] NBody must be open in the plane"
  const InvalidPeriodicityZ := "[Mobility] Invalid periodicity"
  const InitializeFirst := "[Mobility] Initialize the NBody solver before setting parameters."

  datatype Kernel = OpenRpy | BottomWall

  /** The strategies the kernels offer; `Advise` lets them choose. */
  datatype Algorithm = Fast | Naive | Block | Advise

  /** The batch layout and strategy; a negative count means "default". */
  datatype NBodyParameters = NBodyParameters(algo: Algorithm, nbatch: int, nperBatch: int)

  const DefaultNBodyParameters := NBodyParameters(Advise, -1, -1)

  datatype Solver = Solver(
    base: Mobility.Base,
    kernel: Kernel,
    positions: seq<real>,
    selfMobility: real,
    hydrodynamicRadius: real,
    numberParticles: int,
    algorithm: Algorithm,
    initialized: bool,
    nbatch: int,
    nperBatch: int)

  /** The constructor: open in x and y is required; an open z selects the
      free-space kernel, a single wall the bottom-wall kernel, anything
      else is rejected. The members it leaves unset are given as zero. */
  function New(conf: Configuration, temperature0: real): (r: Result<Solver>)
    ensures (conf.x != Open || conf.y != Open) <==> r == Err(NotOpenInPlane)
    ensures r.Ok? <==> conf.x == Open && conf.y == Open && conf.z in {Open, SingleWall}
    ensures conf.x == Open && conf.y == Open && conf.z !in {Open, SingleWall} ==> r == Err(InvalidPeriodicityZ)
    ensures r.Ok? ==> (r.value.kernel == BottomWall <==> conf.z == SingleWall)
    ensures r.Ok? ==> !r.value.initialized && r.value.algorithm == Advise && r.value.base == Mobility.NewBase(temperature0)
  {
    if conf.x != Open || conf.y != Open then Err(NotOpenInPlane)
    else if conf.z == Open then Ok(Fresh(OpenRpy, temperature0))
    else if conf.z == SingleWall then Ok(Fresh(BottomWall, temperature0))
    else Err(InvalidPeriodicityZ)
  }

  function Fresh(kernel: Kernel, temperature0: real): Solver {
    Solver(Mobility.NewBase(temperature0), kernel, [], 0.0, 0.0, 0, Advise, false, 0, 0)
  }

  /** `setParametersNBody`: only after `initialize`; a negative batch count
      becomes one batch, a negative batch size becomes all particles. */
  function SetParameters(s: Solver, par: NBodyParameters): (r: Result<Solver>)
    ensures r.Err? <==> !s.initialized
    ensures r.Err? ==> r.message == InitializeFirst
    ensures r.Ok? ==>
              && r.value.algorithm == par.algo
              && r.value.nbatch == (if par.nbatch < 0 then 1 else par.nbatch)
              && r.value.nperBatch == (if par.nperBatch < 0 then s.numberParticles else par.nperBatch)
              && r.value.(algorithm := s.algorithm, nbatch := s.nbatch, nperBatch := s.nperBatch) == s
  {
    if !s.initialized then Err(InitializeFirst)
    else
      var nbatch := if par.nbatch < 0 then 1 else par.nbatch;
      var nperBatch := if par.nperBatch < 0 then s.numberParticles else par.nperBatch;
      Ok(s.(algorithm := par.algo, nbatch := nbatch, nperBatch := nperBatch))
  }

  /** The batch layout always ends up non-negative when the particle count
      is, and the default describes a single batch holding every particle. */
  lemma {:induction false} DefaultIsOneBatch(s: Solver)
    requires s.initialized && s.numberParticles >= 0
    ensures var r := SetParameters(s, DefaultNBodyParameters);
            && r.Ok?
            && r.value.nbatch == 1 && r.value.nperBatch == s.numberParticles
            && r.value.nbatch * r.value.nperBatch == s.numberParticles
  {
  }

  /** Setting the same batch parameters twice is the same as once. */
  lemma SetParametersIdempotent(s: Solver, par: NBodyParameters)
    requires s.initialized
    ensures SetParameters(SetParameters(s, par).value, par) == SetParameters(s, par)
  {
  }

  /** `initialize`: marks the solver initialised, records the particle count
      and the first radius, sets the self mobility to the inverse Stokes drag,
      then initialises the base. The batch layout is left as it was. */
  function Initialize(s: Solver, p: Parameters): (r: Solver)
    requires |p.hydrodynamicRadius| >= 1
    requires p.viscosity != 0.0 && p.hydrodynamicRadius[0] != 0.0
    ensures r.initialized && r.numberParticles == p.numberParticles
    ensures r.hydrodynamicRadius == p.hydrodynamicRadius[0]
    ensures r.selfMobility * TranslationalDrag(p.viscosity, p.hydrodynamicRadius[0]) == 1.0
    ensures r.base == Mobility.Initialize(s.base, p)
    ensures r.nbatch == s.nbatch && r.nperBatch == s.nperBatch && r.algorithm == s.algorithm
    ensures r.kernel == s.kernel && r.positions == s.positions
  {
    var a := p.hydrodynamicRadius[0];
    DragNonZero(p.viscosity, a);
    s.(initialized := true, numberParticles := p.numberParticles, hydrodynamicRadius := a,
       selfMobility := 1.0 / TranslationalDrag(p.viscosity, a),
       base := Mobility.Initialize(s.base, p))
  }

  /** The order the calls must come in: parameters set straight after
      construction are rejected, after `initialize` they are accepted. */
  lemma {:induction false} ParametersAfterInitialize(conf: Configuration, temperature0: real, p: Parameters, par: NBodyParameters)
    requires New(conf, temperature0).Ok?
    requires |p.hydrodynamicRadius| >= 1
    requires p.viscosity != 0.0 && p.hydrodynamicRadius[0] != 0.0
    ensures SetParameters(New(conf, temperature0).value, par) == Err(InitializeFirst)
    ensures SetParameters(Initialize(New(conf, temperature0).value, p), par).Ok?
  {
  }

  /** Re-initialising with another particle count keeps the batch size
      derived from the old one: the default layout must be set again. */
  lemma {:induction false} ReinitializeKeepsBatchSize(s: Solver, p: Parameters, q: Parameters)
    requires |p.hydrodynamicRadius| >= 1 && p.viscosity != 0.0 && p.hydrodynamicRadius[0] != 0.0
    requires |q.hydrodynamicRadius| >= 1 && q.viscosity != 0.0 && q.hydrodynamicRadius[0] != 0.0
    ensures var s1 := SetParameters(Initialize(s, p), DefaultNBodyParameters).value;
            var s2 := Initialize(s1, q);
            s2.nperBatch == p.numberParticles && s2.numberParticles == q.numberParticles
  {
  }

  /** `setPositions`: the stored positions become exactly the first `3N`
      input values. A negative count makes the resize throw. */
  function SetPositions(s: Solver, positions: seq<real>): (r: Result<Solver>)
    requires s.numberParticles >= 0 ==> |positions| >= 3 * s.numberParticles
    ensures r.Err? <==> s.numberParticles < 0
    ensures r.Err? ==> r.message == Mobility.LengthError
    ensures r.Ok? ==>
              && |r.value.positions| == 3 * s.numberParticles
              && (forall i :: 0 <= i < 3 * s.numberParticles ==> r.value.positions[i] == positions[i])
              && r.value.(positions := s.positions) == s
  {
    if s.numberParticles < 0 then Err(Mobility.LengthError)
    else Ok(s.(positions := positions[..3 * s.numberParticles]))
  }

  /** Storing the stored positions again changes nothing. */
  lemma SetPositionsIdempotent(s: Solver, positions: seq<real>)
    requires s.numberParticles >= 0 && |positions| >= 3 * s.numberParticles
    ensures var s1 := SetPositions(s, positions).value;
            SetPositions(s1, s1.positions) == Ok(s1)
  {
    var s1 := SetPositions(s, positions).value;
    assert s1.positions[..3 * s1.numberParticles] == s1.positions;
  }

  /** The batched kernels a product is dispatched to. */
  datatype Routine = OpenBoundaryRpy | BottomWallRpy

  /** The bottom-wall kernel goes to the bottom-wall routine, everything
      else to the free-space one. */
  function Dispatch(k: Kernel): (r: Routine)
    ensures r == BottomWallRpy <==> k == BottomWall
  {
    if k == BottomWall then BottomWallRpy else OpenBoundaryRpy
  }

  /** The routine a constructed solver uses follows from its z
      periodicity alone. */
  lemma {:induction false} RoutineFromConfiguration(conf: Configuration, temperature0: real)
    requires New(conf, temperature0).Ok?
    ensures Dispatch(New(conf, temperature0).value.kernel) == (if conf.z == SingleWall then BottomWallRpy else OpenBoundaryRpy)
  {
  }
}

=== FILE: periodicity.dfy ===
/** Boundary geometry and physical parameters shared by all solvers
    (include/MobilityInterface/MobilityInterface.h) and the token parser and
    argument marshalling of the Python binding
    (include/MobilityInterface/pythonify.h). */
module Periodicity {
  import opened Results

  /** Boundary condition of one axis (`periodicity_mode`). */
  datatype Mode = SingleWall | TwoWalls | Open | Periodic | Unspecified

  /** Periodicity of the three axes, fixed when a solver is constructed. */
  datatype Configuration = Configuration(x: Mode, y: Mode, z: Mode)

  /** A default-constructed `Configuration` leaves every axis unspecified. */
  const DefaultConfiguration := Configuration(Unspecified, Unspecified, Unspecified)

  /** Parameters common to every solver. `seed` is an unsigned 64-bit value;
      zero means "draw one from an entropy source". */
  datatype Parameters = Parameters(
    hydrodynamicRadius: seq<real>,
    viscosity: real,
    temperature: real,
    tolerance: real,
    numberParticles: int,
    seed: nat,
    needsTorque: bool)

  /** The member initialisers of `Parameters`. */
  const DefaultParameters := Parameters([], 1.0, 0.0, 0.0001, -1, 0, false)

  const InvalidPeriodicity := "[libMobility] Invalid periodicity"

  /** The token that names each mode in the binding. */
  function Token(m: Mode): string {
    match m
    case Open => "open"
    case Unspecified => "unspecified"
    case SingleWall => "single_wall"
    case TwoWalls => "two_walls"
    case Periodic => "periodic"
  }

  /** The five accepted tokens. */
  const Tokens: set<string> := {"open", "unspecified", "single_wall", "two_walls", "periodic"}

  /** `string2Periodicity`: accepts exactly the five tokens, each naming the
      mode of the same name; anything else raises. */
  function StringToPeriodicity(s: string): (r: Result<Mode>)
    ensures r.Ok? <==> s in Tokens
    ensures r.Ok? ==> Token(r.value) == s
    ensures r.Err? ==> r.message == InvalidPeriodicity
  {
    if s == "open" then Ok(Open)
    else if s == "unspecified" then Ok(Unspecified)
    else if s == "single_wall" then Ok(SingleWall)
    else if s == "two_walls" then Ok(TwoWalls)
    else if s == "periodic" then Ok(Periodic)
    else Err(InvalidPeriodicity)
  }

  /** Every mode is recovered from its own token. */
  lemma TokenRoundTrip(m: Mode)
    ensures StringToPeriodicity(Token(m)) == Ok(m)
  {
  }

  /** Distinct accepted tokens name distinct modes. */
  lemma StringToPeriodicityInjective(s: string, t: string)
    requires StringToPeriodicity(s).Ok? && StringToPeriodicity(t).Ok?
    requires s != t
    ensures StringToPeriodicity(s).value != StringToPeriodicity(t).value
  {
    assert Token(StringToPeriodicity(s).value) == s;
    assert Token(StringToPeriodicity(t).value) == t;
  }

  /** `createConfiguration`: the three axes are parsed independently, in the
      order x, y, z; the first invalid token aborts with no configuration. */
  function CreateConfiguration(px: string, py: string, pz: string): (r: Result<Configuration>)
    ensures r.Ok? <==> px in Tokens && py in Tokens && pz in Tokens
    ensures r.Ok? ==> Token(r.value.x) == px && Token(r.value.y) == py && Token(r.value.z) == pz
    ensures r.Err? ==> r.message == InvalidPeriodicity
  {
    var x :- StringToPeriodicity(px);
    var y :- StringToPeriodicity(py);
    var z :- StringToPeriodicity(pz);
    Ok(Configuration(x, y, z))
  }

  /** Every configuration is produced by the tokens of its three axes. */
  lemma CreateConfigurationRoundTrip(c: Configuration)
    ensures CreateConfiguration(Token(c.x), Token(c.y), Token(c.z)) == Ok(c)
  {
    TokenRoundTrip(c.x);
    TokenRoundTrip(c.y);
    TokenRoundTrip(c.z);
  }

  /** The `initialize` binding: only temperature, viscosity, a single radius
      and the particle count come from the caller; tolerance, seed and the
      torque flag keep the struct's defaults. */
  function BindingParameters(temperature: real, viscosity: real, radius: real, numberParticles: int): (p: Parameters)
    ensures p.hydrodynamicRadius == [radius] && |p.hydrodynamicRadius| == 1
    ensures p.temperature == temperature && p.viscosity == viscosity
    ensures p.numberParticles == numberParticles
    ensures p.tolerance == 0.0001 && p.seed == 0 && !p.needsTorque
  {
    DefaultParameters.(
      temperature := temperature,
      viscosity := viscosity,
      hydrodynamicRadius := [radius],
      numberParticles := numberParticles)
  }

  /** The `Mdot` and `hydrodynamicVelocities` bindings hand the solver a
      null forces pointer for an empty array and the array itself otherwise. */
  function ForcesPointer(forces: seq<real>): (r: Option<seq<real>>)
    ensures r.None? <==> |forces| == 0
    ensures r.Some? ==> r.value == forces
  {
    if |forces| == 0 then None else Some(forces)
  }
}

=== FILE: polyfits.dfy ===
/** Polynomial evaluation used to re-fit the DPStokes kernel shape
    (solvers/DPStokes/extra/poly_fits.h). Coefficients are listed highest
    degree first. */
module PolyFits {

  function Pow(x: real, k: nat): real {
    if k == 0 then 1.0 else x * Pow(x, k - 1)
  }

  /** The first `k` terms of the polynomial in ascending powers of `x`:
      the sum of `c[|c|-1-i] * x^i` for `i < k`. */
  function PowerSum(c: seq<real>, x: real, k: nat): real
    requires k <= |c|
  {
    if k == 0 then 0.0 else PowerSum(c, x, k - 1) + c[|c| - k] * Pow(x, k - 1)
  }

  /** The value of the polynomial with coefficients `c` at `x`. */
  function PolyValue(c: seq<real>, x: real): real
    requires |c| >= 1
  {
    PowerSum(c, x, |c|)
  }

  /** Horner's rule over the same coefficient order: an independent
      definition of the polynomial's value. */
  function Horner(c: seq<real>, x: real): real {
    if |c| == 0 then 0.0 else Horner(c[..|c| - 1], x) * x + c[|c| - 1]
  }

  /** `polyEval`: starts from the constant term and adds one higher power per
      step, keeping the running power of `x` alongside. An empty list would
      read index -1, so at least one coefficient is needed. */
  method PolyEval(c: seq<real>, x: real) returns (r: real)
    requires |c| >= 1
    ensures r == PolyValue(c, x)
    ensures r == Horner(c, x)
  {
    var order := |c| - 1;
    var accumulator := c[order];
    var currentX := x;
    var i := 1;
    while i <= order
      invariant 1 <= i <= order + 1
      invariant accumulator == PowerSum(c, x, i)
      invariant currentX == Pow(x, i)
    {
      accumulator := accumulator + c[order - i] * currentX;
      currentX := currentX * x;
      i := i + 1;
    }
    r := accumulator;
    PowerSumIsHorner(c, x);
  }

  /** Splitting off the constant term: the remaining terms are `x` times the
      polynomial of the leading coefficients. */
  lemma {:induction false} PowerSumShift(c: seq<real>, x: real, k: nat)
    requires 1 <= |c|
    requires k <= |c| - 1
    ensures PowerSum(c, x, k + 1) == c[|c| - 1] + x * PowerSum(c[..|c| - 1], x, k)
  {
    var d := c[..|c| - 1];
    if k == 0 {
      assert PowerSum(c, x, 1) == c[|c| - 1] * Pow(x, 0);
    } else {
      PowerSumShift(c, x, k - 1);
      var b := c[|c| - 1 - k];
      var p := Pow(x, k - 1);
      var q := Pow(x, k);
      var a := PowerSum(d, x, k - 1);
      var t := PowerSum(d, x, k);
      assert d[|d| - k] == b;
      assert t == a + b * p;
      assert q == x * p;
      var sk := PowerSum(c, x, k);
      var sk1 := PowerSum(c, x, k + 1);
      assert sk1 == sk + b * q;
      assert sk == c[|c| - 1] + x * a;
      ShiftStep(sk1, sk, c[|c| - 1], x, a, b, p, q, t);
    }
  }

  /** The ring identity behind one step of `PowerSumShift`. */
  lemma ShiftStep(sk1: real, sk: real, c0: real, x: real, a: real, b: real, p: real, q: real, t: real)
    requires sk1 == sk + b * q && q == x * p
    requires sk == c0 + x * a && t == a + b * p
    ensures sk1 == c0 + x * t
  {
    assert x * t == x * a + x * (b * p);
  }

  /** The power-sum and Horner definitions agree on every coefficient list. */
  lemma {:induction false} PowerSumIsHorner(c: seq<real>, x: real)
    ensures PowerSum(c, x, |c|) == Horner(c, x)
  {
    if |c| == 0 {
    } else {
      var d := c[..|c| - 1];
      PowerSumIsHorner(d, x);
      PowerSumShift(c, x, |c| - 1);
    }
  }

  /** At zero only the constant term, the last coefficient, survives. */
  lemma {:induction false} PolyValueAtZero(c: seq<real>)
    requires |c| >= 1
    ensures PolyValue(c, 0.0) == c[|c| - 1]
  {
    PowerSumIsHorner(c, 0.0);
  }

  /** A single coefficient is a constant function. */
  lemma PolyValueConstant(c: seq<real>, x: real, y: real)
    requires |c| == 1
    ensures PolyValue(c, x) == PolyValue(c, y) == c[0]
  {
    assert PowerSum(c, x, 1) == PowerSum(c, x, 0) + c[0] * Pow(x, 0);
    assert PowerSum(c, y, 1) == PowerSum(c, y, 0) + c[0] * Pow(y, 0);
  }

  /** Coefficients of the inverse fit of the kernel shape parameter `beta`
      against `a/(w*h)`. */
  const CBetamInv: seq<real> := [
    4131643418.193291,
    -10471683395.26777,
    11833009228.6429,
    -7851132955.882548,
    3388121732.651829,
    -994285251.2185925,
    201183449.7086889,
    -27776767.88241613,
    2515647.646492857,
    -136305.2970161326,
    3445.959503226691]

  /** The corrected kernel shape parameter `beta` for `a/(w*h) = x`. */
  function BetaFit(x: real): real {
    PolyValue(CBetamInv, x)
  }

  /** The fit has degree ten, and its value at zero is its constant term. */
  lemma CBetamInvDegree()
    ensures |CBetamInv| == 11
    ensures PolyValue(CBetamInv, 0.0) == 3445.959503226691
  {
    PolyValueAtZero(CBetamInv);
  }
}

=== FILE: pse.dfy ===
/** The PSE solver's bookkeeping around the triply periodic positively
    split Ewald engine: which parameters it was built with, when a repeated
    `initialize` only updates the shear strain, and the torque rejections.
    The engine's computation is an input function. */
module PSE {
  import opened Results
  import opened Periodicity
  import Mobility

  const TriplyPeriodic := "[Mobility] This is a triply periodic solver"
  const TorqueNotImplemented := "[PSE] Torque is not implemented"
  const PositionsFirst := "[PSE] You must call setParametersPSE() after initialize()"

  /** The engine parameters: the splitting `psi`, the box, the shear strain
      and the fluid and tolerance values copied from `Parameters`. */
  datatype PsePar = PsePar(
    psi: real, Lx: real, Ly: real, Lz: real, shearStrain: real,
    viscosity: real, hydrodynamicRadius: real, tolerance: real)

  /** The box part set by `setParametersPSE`. */
  datatype Box = Box(psi: real, Lx: real, Ly: real, Lz: real, shearStrain: real)

  /** An engine: the parameters and particle count it was built with (the
      shear strain among them can be updated in place), and the number of
      thermal computations it has made, which stands for the position of
      its random generator. */
  datatype Engine = Engine(par: PsePar, numberParticles: int, draws: nat)

  /** The engine handle is set and was built for `par` and `n` particles,
      however many thermal computations it has made since. */
  predicate RunsWith(e: Option<Engine>, par: PsePar, n: int) {
    e.Some? && e.value.par == par && e.value.numberParticles == n
  }

  datatype Solver = Solver(
    base: Mobility.Base,
    positions: seq<real>,
    engine: Option<Engine>,
    psepar: PsePar,
    currentpsepar: PsePar,
    currentNumberParticles: int,
    temperature: real)

  /** The constructor accepts only a periodic configuration. The engine
      parameters it leaves unset are an input, the temperature is zero. */
  function New(conf: Configuration, defaults: PsePar, temperature0: real): (r: Result<Solver>)
    ensures r.Ok? <==> conf.x == Periodic && conf.y == Periodic && conf.z == Periodic
    ensures r.Err? ==> r.message == TriplyPeriodic
    ensures r.Ok? ==> r.value.engine.None? && r.value.currentNumberParticles == 0 && r.value.positions == []
  {
    if conf.x != Periodic || conf.y != Periodic || conf.z != Periodic then Err(TriplyPeriodic)
    else Ok(Solver(Mobility.NewBase(temperature0), [], None, defaults, defaults, 0, 0.0))
  }

  /** `setParametersPSE`: the box and shear strain are stored for the next
      `initialize`; nothing else changes. */
  function SetParameters(s: Solver, box: Box): (r: Solver)
    ensures r.psepar.psi == box.psi && r.psepar.Lx == box.Lx && r.psepar.Ly == box.Ly
    ensures r.psepar.Lz == box.Lz && r.psepar.shearStrain == box.shearStrain
    ensures r.psepar.(psi := s.psepar.psi, Lx := s.psepar.Lx, Ly := s.psepar.Ly, Lz := s.psepar.Lz,
                      shearStrain := s.psepar.shearStrain) == s.psepar
    ensures r.(psepar := s.psepar) == s
  {
    s.(psepar := s.psepar.(psi := box.psi, Lx := box.Lx, Ly := box.Ly, Lz := box.Lz, shearStrain := box.shearStrain))
  }

  /** Whether a new `initialize` may keep the engine: the pending box equals
      the committed one apart from the shear strain, and temperature,
      viscosity, first radius, tolerance and particle count are those of
      `p`. */
  function OnlyShearStrainChanged(s: Solver, p: Parameters): (r: bool)
    requires |p.hydrodynamicRadius| >= 1
    ensures r <==> && s.psepar == s.currentpsepar.(shearStrain := s.psepar.shearStrain, viscosity := p.viscosity,
                                                    hydrodynamicRadius := p.hydrodynamicRadius[0], tolerance := p.tolerance)
                   && s.temperature == p.temperature
                   && s.currentNumberParticles == p.numberParticles
  {
    if s.currentpsepar.psi != s.psepar.psi || s.currentpsepar.Lx != s.psepar.Lx
       || s.currentpsepar.Ly != s.psepar.Ly || s.currentpsepar.Lz != s.psepar.Lz then false
    else if s.temperature != p.temperature || s.psepar.viscosity != p.viscosity
            || s.psepar.hydrodynamicRadius != p.hydrodynamicRadius[0]
            || s.psepar.tolerance != p.tolerance || s.currentNumberParticles != p.numberParticles then false
    else true
  }

  /** The decision never looks at the shear strain, pending or committed:
      changing it alone cannot force a rebuild. */
  lemma OnlyShearStrainChangedIgnoresShear(s: Solver, p: Parameters, x: real, y: real)
    requires |p.hydrodynamicRadius| >= 1
    ensures OnlyShearStrainChanged(s.(psepar := s.psepar.(shearStrain := x), currentpsepar := s.currentpsepar.(shearStrain := y)), p)
            == OnlyShearStrainChanged(s, p)
  {
  }

  /** `initialize`. With an engine and only the shear strain changed, the
      engine's shear strain is updated and nothing else; otherwise the
      values of `p` are recorded, the base is initialised and the engine is
      rebuilt. Either way the pending parameters are committed, and only
      then are torques rejected. */
  function Initialize(s: Solver, p: Parameters): (r: Step<Solver, ()>)
    requires |p.hydrodynamicRadius| >= 1
    ensures r.state.currentpsepar == r.state.psepar
    ensures r.result.Err? <==> p.needsTorque
    ensures r.result.Err? ==> r.result.message == TorqueNotImplemented
    ensures r.state.positions == s.positions && r.state.engine.Some?
    ensures s.engine.Some? && OnlyShearStrainChanged(s, p) ==>
              && r.state.engine == Some(s.engine.value.(par := s.engine.value.par.(shearStrain := s.psepar.shearStrain)))
              && r.state == s.(engine := r.state.engine, currentpsepar := s.psepar)
    ensures !(s.engine.Some? && OnlyShearStrainChanged(s, p)) ==>
              && r.state.temperature == p.temperature
              && r.state.currentNumberParticles == p.numberParticles
              && r.state.psepar == s.psepar.(viscosity := p.viscosity, hydrodynamicRadius := p.hydrodynamicRadius[0],
                                             tolerance := p.tolerance)
              && r.state.base == Mobility.Initialize(s.base, p)
              && r.state.engine == Some(Engine(r.state.psepar, p.numberParticles, 0))
  {
    var s1 :=
      if s.engine.Some? && OnlyShearStrainChanged(s, p) then
        s.(engine := Some(s.engine.value.(par := s.engine.value.par.(shearStrain := s.psepar.shearStrain))))
      else
        var par := s.psepar.(viscosity := p.viscosity, hydrodynamicRadius := p.hydrodynamicRadius[0], tolerance := p.tolerance);
        s.(temperature := p.temperature, psepar := par, currentNumberParticles := p.numberParticles,
           base := Mobility.Initialize(s.base, p), engine := Some(Engine(par, p.numberParticles, 0)));
    var s2 := s1.(currentpsepar := s1.psepar);
    if p.needsTorque then Step(s2, Err(TorqueNotImplemented)) else Step(s2, Ok(()))
  }

  /** The engine runs with the committed parameters and particle count, and
      the pending parameters share the committed fluid values. */
  ghost predicate Valid(s: Solver) {
    s.engine.Some? ==>
      && RunsWith(s.engine, s.currentpsepar, s.currentNumberParticles)
      && s.psepar.viscosity == s.currentpsepar.viscosity
      && s.psepar.hydrodynamicRadius == s.currentpsepar.hydrodynamicRadius
      && s.psepar.tolerance == s.currentpsepar.tolerance
  }

  lemma NewIsValid(conf: Configuration, defaults: PsePar, temperature0: real)
    requires New(conf, defaults, temperature0).Ok?
    ensures Valid(New(conf, defaults, temperature0).value)
  {
  }

  lemma SetParametersPreservesValid(s: Solver, box: Box)
    requires Valid(s)
    ensures Valid(SetParameters(s, box))
  {
  }

  /** Whichever path `initialize` takes, afterwards the engine runs with
      the pending parameters, and the solver holds the temperature,
      viscosity, radius, tolerance and particle count of `p`: the fast path
      only skips work that would not change anything but the shear strain. */
  lemma {:induction false} InitializeSynchronises(s: Solver, p: Parameters)
    requires Valid(s) && |p.hydrodynamicRadius| >= 1
    ensures var r := Initialize(s, p).state;
            && Valid(r)
            && RunsWith(r.engine, r.psepar, r.currentNumberParticles)
            && r.temperature == p.temperature && r.currentNumberParticles == p.numberParticles
            && r.psepar.viscosity == p.viscosity && r.psepar.hydrodynamicRadius == p.hydrodynamicRadius[0]
            && r.psepar.tolerance == p.tolerance
  {
    var r := Initialize(s, p).state;
    if s.engine.Some? && OnlyShearStrainChanged(s, p) {
      var e := s.engine.value;
      assert e.par == s.currentpsepar;
      assert e.par.(shearStrain := s.psepar.shearStrain) == s.psepar;
    }
  }

  /** After an `initialize`, changing only the shear strain and
      initialising again with the same `p` takes the fast path: the engine
      is kept, with the new shear strain, and the base is not touched. */
  lemma {:induction false} ShearChangeTakesFastPath(s: Solver, p: Parameters, shear: real)
    requires Valid(s) && |p.hydrodynamicRadius| >= 1
    ensures var s1 := Initialize(s, p).state;
            var pending := s1.psepar;
            var s2 := SetParameters(s1, Box(pending.psi, pending.Lx, pending.Ly, pending.Lz, shear));
            && s1.engine.Some? && OnlyShearStrainChanged(s2, p)
            && Initialize(s2, p).state.engine == Some(s1.engine.value.(par := s1.engine.value.par.(shearStrain := shear)))
            && Initialize(s2, p).state.base == s1.base
  {
    InitializeSynchronises(s, p);
  }

  /** A change of box, particle count or fluid parameters forces a full
      re-initialisation: the engine is rebuilt with the new values. */
  lemma {:induction false} OtherChangeRebuilds(s: Solver, p: Parameters)
    requires |p.hydrodynamicRadius| >= 1
    requires s.currentpsepar.Lx != s.psepar.Lx || s.currentNumberParticles != p.numberParticles
             || s.temperature != p.temperature
    ensures Initialize(s, p).state.engine == Some(Engine(Initialize(s, p).state.psepar, p.numberParticles, 0))
    ensures Initialize(s, p).state.base == Mobility.Initialize(s.base, p)
  {
  }

  /** The torque rejection comes after the commit: the solver is left
      initialised with the engine built, only the error is raised. */
  lemma {:induction false} TorqueRejectedAfterCommit(s: Solver, p: Parameters)
    requires |p.hydrodynamicRadius| >= 1 && p.needsTorque
    requires s.engine.None?
    ensures var r := Initialize(s, p);
            && r.result == Err(TorqueNotImplemented)
            && r.state.base.initialized
            && r.state.engine == Some(Engine(r.state.psepar, p.numberParticles, 0))
  {
  }

  /** `setPositions`: rejected while the particle count is zero (no
      `initialize` yet), a negative count makes the resize throw, otherwise
      exactly the first `3N` values are stored. */
  function SetPositions(s: Solver, positions: seq<real>): (r: Result<Solver>)
    requires s.currentNumberParticles > 0 ==> |positions| >= 3 * s.currentNumberParticles
    ensures r.Err? <==> s.currentNumberParticles <= 0
    ensures s.currentNumberParticles == 0 ==> r == Err(PositionsFirst)
    ensures s.currentNumberParticles < 0 ==> r == Err(Mobility.LengthError)
    ensures r.Ok? ==>
              && |r.value.positions| == 3 * s.currentNumberParticles
              && (forall i :: 0 <= i < |r.value.positions| ==> r.value.positions[i] == positions[i])
              && r.value.(positions := s.positions) == s
  {
    var n := s.currentNumberParticles;
    if n == 0 then Err(PositionsFirst)
    else if n < 0 then Err(Mobility.LengthError)
    else Ok(s.(positions := positions[..3 * n]))
  }

  /** A fresh solver refuses positions until `initialize` has recorded a
      non-zero particle count. */
  lemma {:induction false} PositionsNeedInitialize(conf: Configuration, defaults: PsePar, temperature0: real,
                                                   positions: seq<real>, p: Parameters)
    requires New(conf, defaults, temperature0).Ok?
    requires |p.hydrodynamicRadius| >= 1 && p.numberParticles > 0 && |positions| >= 3 * p.numberParticles
    ensures SetPositions(New(conf, defaults, temperature0).value, positions) == Err(PositionsFirst)
    ensures SetPositions(Initialize(New(conf, defaults, temperature0).value, p).state, positions).Ok?
  {
  }

  /** The engine's displacement computation: positions, forces (or none),
      the output buffer, temperature and prefactor give the new output. */
  type Displacements = (Engine, seq<real>, Option<seq<real>>, seq<real>, real, real) -> seq<real>

  /** The engine after one more thermal computation. */
  function Advanced(e: Engine): (r: Engine)
    ensures r.draws == e.draws + 1 && r.(draws := e.draws) == e
  {
    e.(draws := e.draws + 1)
  }

  /** `Mdot`: torques are rejected; otherwise the engine computes the
      deterministic displacements at zero temperature and prefactor. The
      model assumes that such a computation leaves the engine's generator
      where it was. The angular buffer is not touched. */
  function Mdot(s: Solver, compute: Displacements, forces: Option<seq<real>>, torques: Option<seq<real>>,
                out: Mobility.Velocities): (r: Result<Mobility.Velocities>)
    requires torques.None? ==> s.engine.Some?
    ensures r.Err? <==> torques.Some?
    ensures r.Err? ==> r.message == TorqueNotImplemented
    ensures r.Ok? ==> r.value == Mobility.Velocities(compute(s.engine.value, s.positions, forces, out.linear, 0.0, 0.0), out.angular)
  {
    if torques.Some? then Err(TorqueNotImplemented)
    else Ok(Mobility.Velocities(compute(s.engine.value, s.positions, forces, out.linear, 0.0, 0.0), out.angular))
  }

  /** `sqrtMdotW`: an angular buffer is rejected and nothing changes;
      otherwise the engine computes the thermal displacements without
      forces, one computation further on than before. */
  function SqrtMdotW(s: Solver, compute: Displacements, out: Mobility.Velocities, prefactor: real): (r: Step<Solver, Mobility.Velocities>)
    requires out.angular.None? ==> s.engine.Some?
    ensures r.result.Err? <==> out.angular.Some?
    ensures r.result.Err? ==> r.result.message == TorqueNotImplemented && r.state == s
    ensures r.result.Ok? ==>
              && r.state == s.(engine := Some(Advanced(s.engine.value)))
              && r.result.value == Mobility.Velocities(compute(r.state.engine.value, s.positions, None, out.linear, s.temperature, prefactor), None)
  {
    if out.angular.Some? then Step(s, Err(TorqueNotImplemented))
    else
      var e := Advanced(s.engine.value);
      Step(s.(engine := Some(e)), Ok(Mobility.Velocities(compute(e, s.positions, None, out.linear, s.temperature, prefactor), None)))
  }

  /** `hydrodynamicVelocities`: an angular buffer is rejected and nothing
      changes; otherwise one engine call computes forces and noise together,
      one computation further on than before. The torques are not looked
      at. */
  function HydrodynamicVelocities(s: Solver, compute: Displacements, forces: Option<seq<real>>, torques: Option<seq<real>>,
                                  out: Mobility.Velocities, prefactor: real): (r: Step<Solver, Mobility.Velocities>)
    requires out.angular.None? ==> s.engine.Some?
    ensures r.result.Err? <==> out.angular.Some?
    ensures r.result.Err? ==> r.result.message == TorqueNotImplemented && r.state == s
    ensures r.result.Ok? ==>
              && r.state == s.(engine := Some(Advanced(s.engine.value)))
              && r.result.value == Mobility.Velocities(compute(r.state.engine.value, s.positions, forces, out.linear, s.temperature, prefactor), None)
  {
    if out.angular.Some? then Step(s, Err(TorqueNotImplemented))
    else
      var e := Advanced(s.engine.value);
      Step(s.(engine := Some(e)), Ok(Mobility.Velocities(compute(e, s.positions, forces, out.linear, s.temperature, prefactor), None)))
  }

  /** Successive thermal calls on one solver hand the engine a generator
      one computation further on each time, so they may draw different
      noise; the engine's parameters stay those it was built with. */
  lemma {:induction false} ThermalCallsAdvance(s: Solver, compute: Displacements, out: Mobility.Velocities, p1: real, p2: real)
    requires out.angular.None? && s.engine.Some?
    ensures var r1 := SqrtMdotW(s, compute, out, p1);
            var r2 := SqrtMdotW(r1.state, compute, out, p2);
            && r1.result.Ok? && r2.result.Ok?
            && r2.state.engine.value.draws == s.engine.value.draws + 2
            && r2.state.engine.value != r1.state.engine.value
            && RunsWith(r2.state.engine, s.engine.value.par, s.engine.value.numberParticles)
  {
  }

  /** Unlike `Mdot`, the combined call does not reject torques: with no
      angular buffer they are silently ignored. */
  lemma {:induction false} CombinedCallIgnoresTorques(s: Solver, compute: Displacements, forces: Option<seq<real>>,
                                                      t: seq<real>, out: Mobility.Velocities, prefactor: real)
    requires out.angular.None? && s.engine.Some?
    ensures Mdot(s, compute, forces, Some(t), out).Err?
    ensures HydrodynamicVelocities(s, compute, forces, Some(t), out, prefactor)
            == HydrodynamicVelocities(s, compute, forces, None, out, prefactor)
    ensures HydrodynamicVelocities(s, compute, forces, Some(t), out, prefactor).result.Ok?
  {
  }

  /** Without forces the combined call is the thermal call. */
  lemma {:induction false} CombinedWithoutForcesIsNoise(s: Solver, compute: Displacements, out: Mobility.Velocities, prefactor: real)
    requires out.angular.None? && s.engine.Some?
    ensures HydrodynamicVelocities(s, compute, None, None, out, prefactor) == SqrtMdotW(s, compute, out, prefactor)
  {
  }
}

=== FILE: results.dfy ===
/** Failure-carrying values shared by every solver model. A C++ exception
    becomes an `Err` carrying the exception's message; a null pointer
    becomes `None`. */
module Results {

  datatype Option<+T> = None | Some(value: T)

  datatype Result<+T> = Ok(value: T) | Err(message: string) {
    predicate IsFailure() {
      Err?
    }

    function PropagateFailure<U>(): Result<U>
      requires Err?
    {
      Err(message)
    }

    function Extract(): T
      requires Ok?
    {
      value
    }
  }

  /** The state an operation leaves behind together with what it returned.
      A C++ member function that throws after mutating its object leaves the
      mutation in place, so the state is kept on both paths. */
  datatype Step<+S, +T> = Step(state: S, result: Result<T>)
}

=== FILE: selfmobility.dfy ===
/** The SelfMobility solver: no hydrodynamic interactions, so the mobility
    is the identity scaled by `1/(6*pi*eta*a)` for forces and
    `1/(8*pi*eta*a^3)` for torques, and its own `sqrtMdotW` draws
    independent Gaussian noise from a Mersenne twister. */
module SelfMobility {
  import opened Results
  import opened Periodicity
  import Mobility
  import opened Stokes

  const OpenBoundary := "[Mobility] This is an open boundary solver"

  /** The seed a default-constructed `std::mt19937` uses. */
  const DefaultEngineSeed: nat := 5489

  /** A Mersenne twister engine, determined by the seed it was seeded with
      (taken modulo `2^32`) and the number of words drawn since. */
  datatype Engine = Engine(seed: nat, used: nat)

  function Seeded(seed: nat): (e: Engine)
    ensures e.used == 0 && e.seed < 0x1_0000_0000
    ensures seed < 0x1_0000_0000 ==> e.seed == seed
  {
    Engine(seed % 0x1_0000_0000, 0)
  }

  /** A fresh standard normal distribution drawing `n` values from an
      engine: the values and the engine afterwards. The distribution object
      is created anew in every `sqrtMdotW` call, so a call is one use of the
      sampler. */
  type Sampler = (Engine, nat) -> (seq<real>, Engine)

  /** The sampler hands out as many values as asked for. */
  ghost predicate Delivers(sample: Sampler) {
    forall e: Engine, n: nat :: |sample(e, n).0| == n
  }

  datatype Solver = Solver(
    base: Mobility.Base,
    linearMobility: real,
    angularMobility: real,
    temperature: real,
    numberParticles: int,
    rng: Engine)

  /** The constructor accepts only an open configuration. The members it
      leaves unset are given as zero (the base temperature is an input). */
  function New(conf: Configuration, temperature0: real): (r: Result<Solver>)
    ensures r.Ok? <==> conf.x == Open && conf.y == Open && conf.z == Open
    ensures r.Err? ==> r.message == OpenBoundary
    ensures r.Ok? ==> r.value.base == Mobility.NewBase(temperature0) && r.value.rng == Engine(DefaultEngineSeed, 0)
  {
    if conf.x != Open || conf.y != Open || conf.z != Open then Err(OpenBoundary)
    else Ok(Solver(Mobility.NewBase(temperature0), 0.0, 0.0, 0.0, 0, Engine(DefaultEngineSeed, 0)))
  }

  /** `initialize`: the engine is re-seeded (from the entropy source when
      the seed is zero), the self mobilities are the inverse drags of the
      first radius, then the base is initialised. The radius list must not
      be empty, and a zero viscosity or radius would divide by zero. */
  function Initialize(s: Solver, p: Parameters, entropy: nat): (r: Solver)
    requires |p.hydrodynamicRadius| >= 1
    requires p.viscosity != 0.0 && p.hydrodynamicRadius[0] != 0.0
    ensures r.linearMobility * TranslationalDrag(p.viscosity, p.hydrodynamicRadius[0]) == 1.0
    ensures r.angularMobility * RotationalDrag(p.viscosity, p.hydrodynamicRadius[0]) == 1.0
    ensures r.rng == Seeded(if p.seed == 0 then entropy else p.seed)
    ensures r.temperature == p.temperature && r.numberParticles == p.numberParticles
    ensures r.base == Mobility.Initialize(s.base, p)
  {
    var a := p.hydrodynamicRadius[0];
    DragNonZero(p.viscosity, a);
    Solver(Mobility.Initialize(s.base, p),
           1.0 / TranslationalDrag(p.viscosity, a),
           1.0 / RotationalDrag(p.viscosity, a),
           p.temperature, p.numberParticles,
           Seeded(if p.seed == 0 then entropy else p.seed))
  }

  /** `setPositions` and `setParametersSelfMobility` acknowledge their input
      and change nothing. */
  function SetPositions(s: Solver, positions: seq<real>): (r: Solver)
    ensures r == s
  {
    s
  }

  function Scale(v: seq<real>, c: real): (r: seq<real>)
    ensures |r| == |v|
    ensures forall i :: 0 <= i < |v| ==> r[i] == v[i] * c
  {
    seq(|v|, i requires 0 <= i < |v| => v[i] * c)
  }

  /** The buffers `Mdot` reads and writes cover the first `3N` reals. */
  predicate MdotBuffers(s: Solver, forces: Option<seq<real>>, torques: Option<seq<real>>, out: Mobility.Velocities) {
    var k := Mobility.Span(s.numberParticles);
    && (forces.Some? ==> |forces.value| >= k && |out.linear| >= k)
    && (torques.Some? ==> |torques.value| >= k && out.angular.Some? && |out.angular.value| >= k)
  }

  /** `Mdot`: each of the first `3N` linear velocities is the force scaled
      by the linear self mobility, each angular velocity the torque scaled
      by the angular one; an output whose input is null is left as it was. */
  function Mdot(s: Solver, forces: Option<seq<real>>, torques: Option<seq<real>>, out: Mobility.Velocities): (r: Mobility.Velocities)
    requires MdotBuffers(s, forces, torques, out)
    ensures |r.linear| == |out.linear|
    ensures r.angular.Some? <==> out.angular.Some?
    ensures r.angular.Some? ==> |r.angular.value| == |out.angular.value|
    ensures forces.None? ==> r.linear == out.linear
    ensures torques.None? ==> r.angular == out.angular
    ensures forces.Some? ==> forall i :: Mobility.Span(s.numberParticles) <= i < |out.linear| ==> r.linear[i] == out.linear[i]
    ensures torques.Some? ==> forall i :: Mobility.Span(s.numberParticles) <= i < |out.angular.value| ==>
              r.angular.value[i] == out.angular.value[i]
  {
    var k := Mobility.Span(s.numberParticles);
    var linear := if forces.Some? then Mobility.Overlay(out.linear, Scale(forces.value[..k], s.linearMobility)) else out.linear;
    var angular := if torques.Some? then Some(Mobility.Overlay(out.angular.value, Scale(torques.value[..k], s.angularMobility)))
                   else out.angular;
    Mobility.Velocities(linear, angular)
  }

  /** After `initialize`, `Mdot` is Stokes drag solved for the velocity:
      the translational drag times each linear velocity gives back the
      force, and the rotational drag times each angular velocity the
      torque. */
  lemma {:induction false} MdotIsStokesDrag(s: Solver, p: Parameters, entropy: nat,
                                           forces: Option<seq<real>>, torques: Option<seq<real>>, out: Mobility.Velocities)
    requires |p.hydrodynamicRadius| >= 1
    requires p.viscosity != 0.0 && p.hydrodynamicRadius[0] != 0.0
    requires MdotBuffers(Initialize(s, p, entropy), forces, torques, out)
    ensures var s1 := Initialize(s, p, entropy);
            var r := Mdot(s1, forces, torques, out);
            var k := Mobility.Span(p.numberParticles);
            && (forces.Some? ==> forall i :: 0 <= i < k ==>
                  r.linear[i] * TranslationalDrag(p.viscosity, p.hydrodynamicRadius[0]) == forces.value[i])
            && (torques.Some? ==> forall i :: 0 <= i < k ==>
                  r.angular.value[i] * RotationalDrag(p.viscosity, p.hydrodynamicRadius[0]) == torques.value[i])
  {
    var s1 := Initialize(s, p, entropy);
    var dt := TranslationalDrag(p.viscosity, p.hydrodynamicRadius[0]);
    var dr := RotationalDrag(p.viscosity, p.hydrodynamicRadius[0]);
    ScaledBack(s1, forces, torques, out, dt, dr);
  }

  /** Scaling by a mobility and then by its inverse gives back the load. */
  lemma {:induction false} ScaledBack(s: Solver, forces: Option<seq<real>>, torques: Option<seq<real>>,
                                      out: Mobility.Velocities, dt: real, dr: real)
    requires MdotBuffers(s, forces, torques, out)
    requires s.linearMobility * dt == 1.0 && s.angularMobility * dr == 1.0
    ensures var r := Mdot(s, forces, torques, out);
            var k := Mobility.Span(s.numberParticles);
            && (forces.Some? ==> forall i :: 0 <= i < k ==> r.linear[i] * dt == forces.value[i])
            && (torques.Some? ==> forall i :: 0 <= i < k ==> r.angular.value[i] * dr == torques.value[i])
  {
    var r := Mdot(s, forces, torques, out);
    var k := Mobility.Span(s.numberParticles);
    if forces.Some? {
      forall i | 0 <= i < k
        ensures r.linear[i] * dt == forces.value[i]
      {
        InverseScale(r.linear[i], forces.value[i], s.linearMobility, dt);
      }
    }
    if torques.Some? {
      forall i | 0 <= i < k
        ensures r.angular.value[i] * dr == torques.value[i]
      {
        InverseScale(r.angular.value[i], torques.value[i], s.angularMobility, dr);
      }
    }
  }


  /** `Mdot` is linear in the forces: the response to a sum of forces is
      the sum of the responses. */
  lemma {:induction false} MdotAdditive(s: Solver, f1: seq<real>, f2: seq<real>, out: Mobility.Velocities)
    requires MdotBuffers(s, Some(f1), None, out) && |f2| == |f1|
    ensures var r1 := Mdot(s, Some(f1), None, out);
            var r2 := Mdot(s, Some(f2), None, out);
            var r := Mdot(s, Some(Mobility.Add(f1, f2)), None, out);
            forall i :: 0 <= i < Mobility.Span(s.numberParticles) ==> r.linear[i] == r1.linear[i] + r2.linear[i]
  {
    var k := Mobility.Span(s.numberParticles);
    var r1 := Mdot(s, Some(f1), None, out);
    var r2 := Mdot(s, Some(f2), None, out);
    var r := Mdot(s, Some(Mobility.Add(f1, f2)), None, out);
    forall i | 0 <= i < k
      ensures r.linear[i] == r1.linear[i] + r2.linear[i]
    {
      assert r.linear[i] == (f1[i] + f2[i]) * s.linearMobility;
      assert r1.linear[i] == f1[i] * s.linearMobility;
      assert r2.linear[i] == f2[i] * s.linearMobility;
    }
  }

  /** The buffers `sqrtMdotW` writes: `3N` linear reals, and `3N` angular
      ones when an angular buffer is given. */
  predicate NoiseBuffers(s: Solver, out: Mobility.Velocities) {
    var k := Mobility.Span(s.numberParticles);
    && |out.linear| >= k
    && (out.angular.Some? ==> |out.angular.value| >= k)
  }

  /** The noise amplitude `prefactor*sqrt(2*T*mobility)`. */
  function Amplitude(prefactor: real, sqrt: real -> real, temperature: real, mobility: real): real {
    prefactor * sqrt(2.0 * temperature * mobility)
  }

  /** The first `k` reals of `dst` replaced by the draws scaled by `amp`. */
  function Fill(dst: seq<real>, draws: seq<real>, amp: real, k: nat): (r: seq<real>)
    requires k <= |dst| && k <= |draws|
    ensures |r| == |dst|
    ensures forall i :: 0 <= i < k ==> r[i] == amp * draws[i]
    ensures forall i :: k <= i < |dst| ==> r[i] == dst[i]
  {
    Mobility.Overlay(dst, Scale(draws[..k], amp))
  }

  /** The overridden `sqrtMdotW`: one fresh normal distribution draws `3N`
      values for the linear buffer and, when an angular buffer is given,
      `3N` more for it, each scaled by `prefactor*sqrt(2*T*mobility)`. There
      is no early return at zero temperature and no initialised check. */
  function SqrtMdotW(s: Solver, sample: Sampler, sqrt: real -> real,
                     out: Mobility.Velocities, prefactor: real): (r: (Solver, Mobility.Velocities))
    requires Delivers(sample)
    requires NoiseBuffers(s, out)
    ensures var k := Mobility.Span(s.numberParticles);
            var drawn := sample(s.rng, if out.angular.Some? then 2 * k else k);
            && r.0 == s.(rng := drawn.1)
            && r.1.linear == Fill(out.linear, drawn.0, Amplitude(prefactor, sqrt, s.temperature, s.linearMobility), k)
            && (out.angular.None? ==> r.1.angular.None?)
            && (out.angular.Some? ==>
                  r.1.angular == Some(Fill(out.angular.value, drawn.0[k..],
                                           Amplitude(prefactor, sqrt, s.temperature, s.angularMobility), k)))
  {
    var k := Mobility.Span(s.numberParticles);
    var drawn := sample(s.rng, if out.angular.Some? then 2 * k else k);
    var linear := Fill(out.linear, drawn.0, Amplitude(prefactor, sqrt, s.temperature, s.linearMobility), k);
    var angular := if out.angular.Some?
                   then Some(Fill(out.angular.value, drawn.0[k..], Amplitude(prefactor, sqrt, s.temperature, s.angularMobility), k))
                   else None;
    (s.(rng := drawn.1), Mobility.Velocities(linear, angular))
  }

  /** `sqrt` returns the non-negative square root on non-negative input. */
  ghost predicate IsSqrt(sqrt: real -> real) {
    forall x: real :: x >= 0.0 ==> sqrt(x) >= 0.0 && sqrt(x) * sqrt(x) == x
  }

  /** Fluctuation-dissipation per sample: the square of each linear noise
      value is `2*T*M` times the square of the prefactor and of its
      standard normal draw, so its variance is `2*T*M*prefactor^2`. */
  lemma {:induction false} NoiseVariance(s: Solver, sample: Sampler, sqrt: real -> real,
                                         out: Mobility.Velocities, prefactor: real, i: int)
    requires Delivers(sample) && IsSqrt(sqrt)
    requires NoiseBuffers(s, out)
    requires s.temperature >= 0.0 && s.linearMobility >= 0.0
    requires 0 <= i < Mobility.Span(s.numberParticles)
    ensures var k := Mobility.Span(s.numberParticles);
            var dW := sample(s.rng, if out.angular.Some? then 2 * k else k).0[i];
            var v := SqrtMdotW(s, sample, sqrt, out, prefactor).1.linear[i];
            v * v == 2.0 * s.temperature * s.linearMobility * (prefactor * prefactor) * (dW * dW)
  {
    var k := Mobility.Span(s.numberParticles);
    var dW := sample(s.rng, if out.angular.Some? then 2 * k else k).0[i];
    var x := 2.0 * s.temperature * s.linearMobility;
    NonNegativeProduct(s.temperature, s.linearMobility);
    var v := SqrtMdotW(s, sample, sqrt, out, prefactor).1.linear[i];
    var amp := Amplitude(prefactor, sqrt, s.temperature, s.linearMobility);
    AmplitudeSquared(prefactor, sqrt, s.temperature, s.linearMobility);
    assert v == amp * dW;
    SquareOfProduct(v, amp, dW, x * (prefactor * prefactor));
  }

  lemma NonNegativeProduct(t: real, m: real)
    requires t >= 0.0 && m >= 0.0
    ensures 2.0 * t * m >= 0.0
  {
  }

  lemma SquareOfProduct(v: real, amp: real, d: real, a2: real)
    requires v == amp * d && amp * amp == a2
    ensures v * v == a2 * (d * d)
  {
    assert v * v == (amp * amp) * (d * d);
  }

  /** The square of the amplitude is `2*T*mobility*prefactor^2` when the
      radicand is non-negative. */
  lemma AmplitudeSquared(prefactor: real, sqrt: real -> real, temperature: real, mobility: real)
    requires IsSqrt(sqrt) && 2.0 * temperature * mobility >= 0.0
    ensures var amp := Amplitude(prefactor, sqrt, temperature, mobility);
            amp * amp == 2.0 * temperature * mobility * (prefactor * prefactor)
  {
    var x := 2.0 * temperature * mobility;
    var q := sqrt(x);
    assert q * q == x;
    assert Amplitude(prefactor, sqrt, temperature, mobility) == prefactor * q;
    assert (prefactor * q) * (prefactor * q) == (q * q) * (prefactor * prefactor);
  }

  /** With an explicit seed the noise after `initialize` does not depend on
      anything that happened before nor on the entropy source: two solvers
      initialised with the same parameters draw the same displacements. */
  lemma {:induction false} SeededNoiseReproducible(s1: Solver, s2: Solver, p: Parameters, e1: nat, e2: nat,
                                                   sample: Sampler, sqrt: real -> real,
                                                   out: Mobility.Velocities, prefactor: real)
    requires |p.hydrodynamicRadius| >= 1
    requires p.viscosity != 0.0 && p.hydrodynamicRadius[0] != 0.0
    requires p.seed != 0
    requires Delivers(sample)
    requires NoiseBuffers(Initialize(s1, p, e1), out)
    ensures NoiseBuffers(Initialize(s2, p, e2), out)
    ensures SqrtMdotW(Initialize(s1, p, e1), sample, sqrt, out, prefactor).1
            == SqrtMdotW(Initialize(s2, p, e2), sample, sqrt, out, prefactor).1
  {
    var a := Initialize(s1, p, e1);
    var b := Initialize(s2, p, e2);
    assert a.rng == b.rng && a.numberParticles == b.numberParticles && a.temperature == b.temperature;
    assert a.linearMobility == b.linearMobility by {
      UniqueInverse(a.linearMobility, b.linearMobility, TranslationalDrag(p.viscosity, p.hydrodynamicRadius[0]));
    }
    assert a.angularMobility == b.angularMobility by {
      UniqueInverse(a.angularMobility, b.angularMobility, RotationalDrag(p.viscosity, p.hydrodynamicRadius[0]));
    }
    NoiseIgnoresBase(a, b.base, sample, sqrt, out, prefactor);
    assert a.(base := b.base) == b;
  }

  /** The noise does not read the base part of the state. */
  lemma NoiseIgnoresBase(s: Solver, base: Mobility.Base, sample: Sampler, sqrt: real -> real,
                         out: Mobility.Velocities, prefactor: real)
    requires Delivers(sample) && NoiseBuffers(s, out)
    ensures SqrtMdotW(s, sample, sqrt, out, prefactor).1 == SqrtMdotW(s.(base := base), sample, sqrt, out, prefactor).1
  {
  }


  /** `hydrodynamicVelocities` as the base defines it, dispatching to this
      solver's `Mdot` and then its `sqrtMdotW` on the same buffers. Since the
      noise pass assigns rather than adds, the first `3N` linear velocities
      are the scaled draws whatever the forces and the temperature, and only
      what lies beyond `3N` survives from before. */
  function HydrodynamicVelocities(s: Solver, sample: Sampler, sqrt: real -> real,
                                  forces: Option<seq<real>>, torques: Option<seq<real>>,
                                  out: Mobility.Velocities, prefactor: real): (r: (Solver, Mobility.Velocities))
    requires Delivers(sample)
    requires MdotBuffers(s, forces, torques, out) && NoiseBuffers(s, out)
    ensures var k := Mobility.Span(s.numberParticles);
            var drawn := sample(s.rng, if out.angular.Some? then 2 * k else k);
            && r.0 == s.(rng := drawn.1)
            && |r.1.linear| == |out.linear|
            && (forall i :: 0 <= i < k ==>
                  r.1.linear[i] == Amplitude(prefactor, sqrt, s.temperature, s.linearMobility) * drawn.0[i])
            && (forall i :: k <= i < |out.linear| ==> r.1.linear[i] == out.linear[i])
            && (out.angular.None? ==> r.1.angular.None?)
            && (out.angular.Some? ==>
                  && r.1.angular.Some?
                  && |r.1.angular.value| == |out.angular.value|
                  && (forall i :: 0 <= i < k ==>
                        r.1.angular.value[i] == Amplitude(prefactor, sqrt, s.temperature, s.angularMobility) * drawn.0[k + i])
                  && (forall i :: k <= i < |out.angular.value| ==> r.1.angular.value[i] == out.angular.value[i]))
  {
    var det := if forces.Some? || torques.Some? then Mdot(s, forces, torques, out) else out;
    NoiseOverwritesFront(s, sample, sqrt, det, out, prefactor);
    NoiseLinear(s, sample, sqrt, out, prefactor);
    if out.angular.Some? then
      NoiseAngular(s, sample, sqrt, out, prefactor);
      SqrtMdotW(s, sample, sqrt, det, prefactor)
    else
      SqrtMdotW(s, sample, sqrt, det, prefactor)
  }

  /** What the noise pass leaves in the linear buffer, entry by entry. */
  lemma NoiseLinear(s: Solver, sample: Sampler, sqrt: real -> real, out: Mobility.Velocities, prefactor: real)
    requires Delivers(sample) && NoiseBuffers(s, out)
    ensures var k := Mobility.Span(s.numberParticles);
            var drawn := sample(s.rng, if out.angular.Some? then 2 * k else k);
            var r := SqrtMdotW(s, sample, sqrt, out, prefactor);
            && r.0 == s.(rng := drawn.1)
            && |r.1.linear| == |out.linear|
            && (forall i :: 0 <= i < k ==>
                  r.1.linear[i] == Amplitude(prefactor, sqrt, s.temperature, s.linearMobility) * drawn.0[i])
            && (forall i :: k <= i < |out.linear| ==> r.1.linear[i] == out.linear[i])
            && (out.angular.None? ==> r.1.angular.None?)
  {
  }

  /** What the noise pass leaves in an angular buffer, entry by entry: the
      draws after the first `3N`, scaled with the angular mobility. */
  lemma NoiseAngular(s: Solver, sample: Sampler, sqrt: real -> real, out: Mobility.Velocities, prefactor: real)
    requires Delivers(sample) && NoiseBuffers(s, out)
    requires out.angular.Some?
    ensures var k := Mobility.Span(s.numberParticles);
            var drawn := sample(s.rng, 2 * k);
            var r := SqrtMdotW(s, sample, sqrt, out, prefactor);
            && r.1.angular.Some?
            && |r.1.angular.value| == |out.angular.value|
            && (forall i :: 0 <= i < k ==>
                  r.1.angular.value[i] == Amplitude(prefactor, sqrt, s.temperature, s.angularMobility) * drawn.0[k + i])
            && (forall i :: k <= i < |out.angular.value| ==> r.1.angular.value[i] == out.angular.value[i])
  {
    var k := Mobility.Span(s.numberParticles);
    FillShifted(out.angular.value, sample(s.rng, 2 * k).0, Amplitude(prefactor, sqrt, s.temperature, s.angularMobility), k);
  }

  /** Filling from the draws after the first `k` puts draw `k + i` at `i`. */
  lemma FillShifted(dst: seq<real>, draws: seq<real>, amp: real, k: nat)
    requires k <= |dst| && 2 * k <= |draws|
    ensures forall i :: 0 <= i < k ==> Fill(dst, draws[k..], amp, k)[i] == amp * draws[k + i]
  {
    var rest := draws[k..];
    forall i | 0 <= i < k
      ensures Fill(dst, rest, amp, k)[i] == amp * draws[k + i]
    {
      assert rest[i] == draws[k + i];
    }
  }

  /** The noise pass reads nothing of the first `3N` reals of its buffers:
      two buffers that agree beyond them come out the same. */
  lemma {:induction false} NoiseOverwritesFront(s: Solver, sample: Sampler, sqrt: real -> real,
                                                a: Mobility.Velocities, b: Mobility.Velocities, prefactor: real)
    requires Delivers(sample) && NoiseBuffers(s, b)
    requires |a.linear| == |b.linear| && (a.angular.Some? <==> b.angular.Some?)
    requires forall i :: Mobility.Span(s.numberParticles) <= i < |b.linear| ==> a.linear[i] == b.linear[i]
    requires b.angular.Some? ==>
               && |a.angular.value| == |b.angular.value|
               && forall i :: Mobility.Span(s.numberParticles) <= i < |b.angular.value| ==> a.angular.value[i] == b.angular.value[i]
    ensures NoiseBuffers(s, a)
    ensures SqrtMdotW(s, sample, sqrt, a, prefactor) == SqrtMdotW(s, sample, sqrt, b, prefactor)
  {
    var ra := SqrtMdotW(s, sample, sqrt, a, prefactor);
    var rb := SqrtMdotW(s, sample, sqrt, b, prefactor);
    assert ra.1.linear == rb.1.linear;
    if b.angular.Some? {
      assert ra.1.angular.value == rb.1.angular.value;
    }
  }

  /** As written, the composition is the noise pass alone: whatever forces
      and torques are given, at any temperature, the result is what
      `sqrtMdotW` makes of the untouched buffers. */
  lemma {:induction false} HydrodynamicVelocitiesIsNoise(s: Solver, sample: Sampler, sqrt: real -> real,
                                                         forces: Option<seq<real>>, torques: Option<seq<real>>,
                                                         out: Mobility.Velocities, prefactor: real)
    requires Delivers(sample)
    requires MdotBuffers(s, forces, torques, out) && NoiseBuffers(s, out)
    ensures HydrodynamicVelocities(s, sample, sqrt, forces, torques, out, prefactor)
            == SqrtMdotW(s, sample, sqrt, out, prefactor)
  {
    var a := HydrodynamicVelocities(s, sample, sqrt, forces, torques, out, prefactor);
    var b := SqrtMdotW(s, sample, sqrt, out, prefactor);
    assert a.0 == b.0;
    assert a.1.linear == b.1.linear;
    if out.angular.Some? {
      assert a.1.angular.value == b.1.angular.value;
    }
  }

  /** As written, at zero temperature the noise pass overwrites the linear
      velocities with zeros: the deterministic response to the forces is
      lost, whatever they are. */
  lemma {:induction false} ZeroTemperatureDropsMdot(s: Solver, sample: Sampler, sqrt: real -> real,
                                                    forces: seq<real>, out: Mobility.Velocities, prefactor: real)
    requires Delivers(sample) && sqrt(0.0) == 0.0
    requires s.temperature == 0.0
    requires MdotBuffers(s, Some(forces), None, out) && NoiseBuffers(s, out)
    ensures var v := HydrodynamicVelocities(s, sample, sqrt, Some(forces), None, out, prefactor).1;
            forall i :: 0 <= i < Mobility.Span(s.numberParticles) ==> v.linear[i] == 0.0
  {
  }

  /** Zeroed buffers shaped like `out`, for the noise pass of the corrected
      composition. */
  function ZeroedLike(out: Mobility.Velocities): (r: Mobility.Velocities)
    ensures |r.linear| == |out.linear| && (r.angular.Some? <==> out.angular.Some?)
    ensures forall i :: 0 <= i < |r.linear| ==> r.linear[i] == 0.0
    ensures r.angular.Some? ==> |r.angular.value| == |out.angular.value|
                                && forall i :: 0 <= i < |r.angular.value| ==> r.angular.value[i] == 0.0
  {
    Mobility.Velocities(Mobility.Zeros(|out.linear|),
                        if out.angular.Some? then Some(Mobility.Zeros(|out.angular.value|)) else None)
  }

  /** The corrected composition: the noise is drawn into zeroed buffers of
      its own, linear and, when one is given, angular, and added component
      by component to the deterministic velocities. */
  function SummedVelocities(s: Solver, sample: Sampler, sqrt: real -> real,
                            forces: Option<seq<real>>, torques: Option<seq<real>>,
                            out: Mobility.Velocities, prefactor: real): (r: (Solver, Mobility.Velocities))
    requires Delivers(sample)
    requires MdotBuffers(s, forces, torques, out) && NoiseBuffers(s, out)
    ensures var det := if forces.Some? || torques.Some? then Mdot(s, forces, torques, out) else out;
            var noise := SqrtMdotW(s, sample, sqrt, ZeroedLike(out), prefactor);
            && r.0 == noise.0
            && |r.1.linear| == |out.linear|
            && (forall i :: 0 <= i < |out.linear| ==> r.1.linear[i] == det.linear[i] + noise.1.linear[i])
            && (out.angular.None? ==> r.1.angular.None?)
            && (out.angular.Some? ==>
                  && r.1.angular.Some? && det.angular.Some? && noise.1.angular.Some?
                  && |r.1.angular.value| == |out.angular.value|
                  && forall i :: 0 <= i < |out.angular.value| ==>
                       r.1.angular.value[i] == det.angular.value[i] + noise.1.angular.value[i])
  {
    var det := if forces.Some? || torques.Some? then Mdot(s, forces, torques, out) else out;
    var noise := SqrtMdotW(s, sample, sqrt, ZeroedLike(out), prefactor);
    var angular := if out.angular.Some? then Some(Mobility.Add(det.angular.value, noise.1.angular.value)) else None;
    (noise.0, Mobility.Velocities(Mobility.Add(det.linear, noise.1.linear), angular))
  }

  /** At zero temperature the corrected composition returns exactly the
      deterministic velocities, linear and angular. */
  lemma {:induction false} ZeroTemperatureKeepsMdot(s: Solver, sample: Sampler, sqrt: real -> real,
                                                    forces: Option<seq<real>>, torques: Option<seq<real>>,
                                                    out: Mobility.Velocities, prefactor: real)
    requires Delivers(sample) && sqrt(0.0) == 0.0
    requires s.temperature == 0.0
    requires MdotBuffers(s, forces, torques, out) && NoiseBuffers(s, out)
    ensures SummedVelocities(s, sample, sqrt, forces, torques, out, prefactor).1
            == if forces.Some? || torques.Some? then Mdot(s, forces, torques, out) else out
  {
    var det := if forces.Some? || torques.Some? then Mdot(s, forces, torques, out) else out;
    var r := SummedVelocities(s, sample, sqrt, forces, torques, out, prefactor).1;
    var noise := SqrtMdotW(s, sample, sqrt, ZeroedLike(out), prefactor).1;
    assert Amplitude(prefactor, sqrt, s.temperature, s.linearMobility) == 0.0;
    assert Amplitude(prefactor, sqrt, s.temperature, s.angularMobility) == 0.0;
    forall i | 0 <= i < |out.linear|
      ensures noise.linear[i] == 0.0
    {
    }
    assert r.linear == det.linear;
    if out.angular.Some? {
      forall i | 0 <= i < |out.angular.value|
        ensures noise.angular.value[i] == 0.0
      {
      }
      assert r.angular.value == det.angular.value;
    }
  }
}

=== FILE: stokes.dfy ===
/** Stokes drag on a sphere of radius `a` in a fluid of viscosity `eta`,
    shared by the solvers whose self mobility is its inverse. */
module Stokes {

  const Pi: real := 3.14159265358979323846

  /** Stokes translational drag `6*pi*eta*a`. */
  function TranslationalDrag(viscosity: real, radius: real): real {
    6.0 * Pi * viscosity * radius
  }

  /** Stokes rotational drag `8*pi*eta*a^3`. */
  function RotationalDrag(viscosity: real, radius: real): real {
    8.0 * Pi * viscosity * radius * radius * radius
  }

  lemma DragNonZero(viscosity: real, radius: real)
    requires viscosity != 0.0 && radius != 0.0
    ensures TranslationalDrag(viscosity, radius) != 0.0
    ensures RotationalDrag(viscosity, radius) != 0.0
  {
    var pv := Pi * viscosity;
    assert pv != 0.0;
    assert pv * radius != 0.0;
    assert pv * radius * radius != 0.0;
    assert pv * radius * radius * radius != 0.0;
  }

  /** Scaling a load by a mobility and then by its inverse drag gives the
      load back. */
  lemma InverseScale(v: real, f: real, m: real, d: real)
    requires v == f * m && m * d == 1.0
    ensures v * d == f
  {
    assert v * d == f * (m * d);
  }

  /** A drag has one inverse. */
  lemma UniqueInverse(m1: real, m2: real, d: real)
    requires m1 * d == 1.0 && m2 * d == 1.0
    ensures m1 == m2
  {
    assert d != 0.0;
    assert (m1 - m2) * d == 0.0;
  }
}
